=== FILE: README.md ===
# JMsTube analysis core in Dafny

JMsTube is a single-page YouTube research tool. The user types a keyword and
the page runs two requests against the YouTube Data API:

- Phase 1 is a search request. It is shaped by the sidebar settings: result
  limit, period, country and the strict-region switch.
- Phase 2 is a statistics and content-details request for the hits of phase 1.

The page joins the two responses into table rows. It shows each row's
decoded title, its duration, its long-form/shorts type and an engagement
badge (CII), and it keeps a history of the terms searched. The user can sort
the table by clicking column headers.

This project models that core (`src/App.js`) as pure functions and proves
properties of it. The modules are:

| module | file | what it models |
|---|---|---|
| `Wrappers` | wrappers.dfy | `Option` |
| `Seqs` | seqs.dfy | `Array.prototype.filter` on sequences, with its algebra |
| `Text` | text.dfy | digits, JavaScript white space, ASCII case mapping, JavaScript string `<` |
| `Entities` | entities.dfy | `decodeHTMLEntities`, with an escaper as its inverse partner |
| `Duration` | duration.dfy | `formatDuration`, `parseDurationToSeconds` and the `includes("M")` type test, with an encoder as their partner |
| `Engagement` | engagement.dfy | `getCIIBadge` |
| `Query` | query.dfy | settings to phase-1 request parameters, including JavaScript `parseInt` |
| `Records` | records.dfy | phase-1 hits, phase-2 details, and their join by video id |
| `InsertionSort` | insertion.dfy | a stable sort over any total preorder, which is the order a stable `Array.prototype.sort` yields |
| `Sorting` | sorting.dfy | `handleSort` and the `sortedVideos` comparator |
| `History` | history.dfy | recording a search, `deleteHistoryItem`, `clearHistory` |
| `Search` | search.dfy | `handleSearch` as one state transition |

The network, the clock and the user's confirmation are parameters:

- The two API responses are inputs to `Search.Run`. A failure that throws is a
  response constructor of its own.
- `Date.now()` and the localised date text are plain arguments.
- `window.confirm` is a boolean argument of `History.Clear`.

Some behaviour follows the code even where a reader might expect otherwise:

- An API error or a thrown failure leaves the table rows in place. The model
  keeps them too (`Search.FailureKeepsResults`).
- `deleteHistoryItem` removes every entry carrying the id, not just one.
- The result limit is not clamped. The nonzero integer `parseInt` reads is
  sent as it is (the model reads it as an exact integer, see "Left out").
- A period of 200 000 000 days or more makes `toISOString` throw before the
  request is sent, because the date leaves JavaScript's time range. The
  search then ends in the catch branch with the rows and history unchanged
  (`Search.LongPeriodFails`).
- With zero views, the badge is Great whenever there is at least one like,
  because the ratio is +Infinity.
- The `cii` and `likeRatio` sort keys compare the same value. `handleSort`
  still treats them as two keys, so clicking `cii` after `likeRatio` starts
  descending again. The `subs` key compares a constant, so it keeps the input
  order.

## Model

| member | source | states |
|---|---|---|
| Entities.EntityAt | src/App.js:20-29 | an entity is recognised only at a `&`, and its length fits in the text |
| Entities.Decode | src/App.js:19-32 | the output is never longer than the input; text without `&` is returned unchanged |
| Entities.DecodeShortensIffEntity | src/App.js:28-31 | the output is shorter exactly when one of the six entities occurs somewhere in the input |
| Entities.DecodeEscapedChar | src/App.js:20-31 | an escaped character at the front decodes to that character, and decoding resumes right after it |
| Entities.DecodeEscape | src/App.js:19-32 | round trip: decoding undoes the API's escaping of `& < > " '` for every string |
| Entities.DecodeIsSinglePass | src/App.js:28-31 | the global replace is a single pass: text escaped twice decodes to text escaped once |
| Entities.DecodeDoubleEscapedLessThan | src/App.js:28-31 | `&amp;lt;` decodes to `&lt;`, not to `<` |
| Entities.DecodeEntity | src/App.js:20-31 | each of the six table entries at the front, `&#34;` included, decodes to its own character, and decoding resumes right after it |
| Entities.DecodeOther | src/App.js:28-31 | a character that starts none of the six entities is kept, and decoding resumes at the next character |
| Entities.DecodeKeeps | src/App.js:28-31 | a character other than `&` is kept, and decoding resumes at the next character |
| Entities.DecodeFirstPlain | src/App.js:28-31 | a leading character other than `&` is copied in front of the decoding of the rest |
| Entities.DecodePlain | src/App.js:28-31 | text without `&` in front of any rest is copied unchanged, and the rest is decoded on its own |
| Entities.DecodeMixedExample | src/App.js:28-31 | a lone `&` is kept while a later entity is still replaced: `a & b &lt; c` decodes to `a & b < c` |
| Entities.DecodeNumericQuote | src/App.js:26 | `&#34;` decodes to `"` |
| Duration.FindPT | src/App.js:292 | the unanchored match starts at the first `PT`; there is none when `PT` never occurs |
| Duration.Group | src/App.js:292 | an optional `(\d+)U` group captures a non-empty digit run only when the unit letter follows it, and consumes nothing otherwise |
| Duration.GroupsFrom | src/App.js:292 | every captured group is a non-empty decimal digit string |
| Duration.MatchDuration | src/App.js:292-293 | there is no match exactly when `PT` does not occur; a match carries well-formed groups |
| Duration.Seconds | src/App.js:300-308 | an absent or empty duration, or one without `PT`, gives 0 seconds |
| Duration.Format | src/App.js:290-298 | an absent or empty duration shows `-`; text without `PT` is shown as it is |
| Duration.GroupsOfRender | src/App.js:292 | the three groups read back exactly the pieces of an encoded `PT#H#M#S` text |
| Duration.MatchRenderGroups | src/App.js:292 | round trip: matching the encoding of any well-formed groups returns those groups |
| Duration.SecondsOfRender | src/App.js:300-308 | round trip: parsing the encoding of h, m, s gives h*3600 + m*60 + s, absent parts counting as 0 |
| Duration.FormatOfRenderGroups | src/App.js:294-297 | with hours the display is `H:MM:SS` (minutes padded), otherwise `M:SS`; seconds are padded to two digits and absent parts show as 0 |
| Duration.PadStart2 | src/App.js:296-297 | `padStart(2, "0")`: the text is kept at the end and only zeros are put in front, up to length 2 |
| Duration.Classify | src/App.js:409-414 | long-form exactly when the duration text contains `M`; a missing duration is a short |
| Duration.ClassifyRenderGroups | src/App.js:409-414 | an encoded duration is long-form exactly when it has a minutes part, whatever its length |
| Engagement.PercentAtLeast | src/App.js:311-312 | with views, the percentage reaches a threshold exactly when likes*100 reaches threshold*views |
| Engagement.Badge | src/App.js:310-341 | with views: Great iff 100*likes >= 4*views, Good iff 2*views <= 100*likes < 4*views, Bad otherwise; without views: Great iff likes > 0, Bad iff likes == 0 |
| Engagement.BadgeMonotoneInLikes | src/App.js:310-341 | for fixed views, more likes never lower the tier |
| Engagement.BadgeAntitoneInViews | src/App.js:310-341 | for fixed likes, more views never raise the tier |
| Engagement.BadgeExamples | src/App.js:310-341 | 5/100 is Great, 2/100 Good, 1/100 Bad, 0/0 Bad |
| Query.ParseInt | src/App.js:144 | text without any digit parses to NaN |
| Query.ParseSigned | src/App.js:144 | text without any digit parses to NaN |
| Query.ParseUnsigned | src/App.js:144 | text without any digit parses to NaN; an unsigned parse is never negative |
| Query.ParseUnsignedDecimal | src/App.js:144 | a decimal rendering of n reads back as n up to the first character that cannot continue it |
| Query.ParseSignedDecimal | src/App.js:144 | a leading `+` keeps the value and a leading `-` negates it |
| Query.ParseIntSkipsSpace | src/App.js:144 | leading white space is skipped |
| Query.ParseIntDecimal | src/App.js:144 | white space, an optional sign, the digits of n and a non-continuing suffix parse to ±n |
| Query.FinalLimit | src/App.js:141-143 | the limit text is never "전체": "전체", or the custom option with an empty or "전체" text, becomes "50"; other custom text and other select values are kept |
| Query.MaxResults | src/App.js:141-144 | `maxResults` is never 0: it is the parsed integer when that is a nonzero number, and 50 when the parse gives NaN or 0 |
| Query.MaxResultsDefaults | src/App.js:142-144 | "전체", and the custom option with an empty or "전체" text, give 50 |
| Query.MaxResultsUsesNumber | src/App.js:141-144 | a positive number in the select or in the custom text is sent as it is, without clamping |
| Query.MaxResultsWithoutDigits | src/App.js:142-144 | custom text with no digit gives 50 |
| Query.FinalCountry | src/App.js:146-147 | a custom country is upper-cased, keeping its length and its letters; any other select value is kept |
| Query.Region | src/App.js:146-151 | `regionCode` is omitted exactly for an empty text or "전체"; otherwise it is the final country text |
| Query.CustomRegionUpperCased | src/App.js:147-151 | a custom region is sent, upper-cased, with its length kept |
| Query.LanguageFor | src/App.js:153-155 | the strict-mode table: KR gives ko, US and UK give en, JP gives ja, FR gives fr (each in both directions), and every other region gives none |
| Query.RelevanceLanguage | src/App.js:152-157 | `relevanceLanguage` is sent exactly when strict mode is on and the region sent is KR, US, JP, UK or FR, and it is that region's entry of the table |
| Query.FinalPeriod | src/App.js:160-161 | the custom option uses the custom period text, any other select value is used as it is |
| Query.FirstDigit | src/App.js:165 | the index of the first digit at or after a position, or none when there is no digit |
| Query.PeriodDays | src/App.js:160-167 | there is no date window exactly for an empty text, "전체", or a text without digits |
| Query.PeriodDaysOf | src/App.js:165-167 | the window is the first digit run of the period text, read in base 10 |
| Query.PresetPeriods | src/App.js:688-691 | "7일", "30일" and "90일" give 7, 30 and 90 days; "전체" gives no window |
| Query.CustomPeriodDays | src/App.js:160-167 | the custom period "200000000" reads as 200 000 000 days |
| Query.WindowStart | src/App.js:168-170 | going back `days` days from `clock` gives a valid time value exactly `days` days earlier, or nothing when that time leaves the range of ±8.64e15 ms |
| Query.WindowStartInRange | src/App.js:168-170 | from a date between 1970 and the end of the range, going back up to 100 000 000 days stays valid |
| Query.WindowStartOutOfRange | src/App.js:168-170 | from a date since 1970, going back 200 000 000 days or more leaves the range |
| Query.BuildRequest | src/App.js:141-176 | the request carries the query, the limit `parseInt(finalLimit)`, or 50 when that is NaN or 0, the region, the relevance language (only with a region in strict mode) and the day count of the period; the region is absent iff the country text is empty or "전체" |
| Query.InitialRequest | src/App.js:48-54 | the initial settings request 100 results from KR over 7 days with no relevance language |
| Records.FindDetail | src/App.js:195 | no record is found iff no record has the id; otherwise the first record with the id is returned |
| Records.Merge | src/App.js:193-197 | one row per hit in hit order, each carrying its hit and its video id, and only a detail record whose id is that video id |
| Records.MergeDropsOrphans | src/App.js:193-197 | a detail record whose id matches no hit appears in no row |
| Records.MergeTakesFirstDetail | src/App.js:195 | when several records share an id, the row gets the earliest one |
| Records.Views | src/App.js:371-374 | the view count is the detail's count when present, and 0 for a missing count or a missing detail record |
| Records.Likes | src/App.js:387-390 | the like count is the detail's count when present, and 0 for a missing count or a missing detail record |
| Records.Comments | src/App.js:391-394 | the comment count is the detail's count when present, and 0 for a missing count or a missing detail record |
| Records.RatioViews | src/App.js:401-406 | the like-ratio denominator is at least 1, and it is the view count when that is positive |
| Records.BadgeOf | src/App.js:1094-1118 | a row without likes is Bad; with views it is Great at 4% likes or more, Good from 2% to below 4%, Bad below 2%; without views it is Great exactly when it has a like |
| Records.BadgeWithoutDetail | src/App.js:1094-1118 | a row without a detail record reads 0 likes and 0 views, so it is Bad |
| Sorting.Toggle | src/App.js:343-349 | a click selects the column; a new column starts descending, and the current column flips direction |
| Sorting.ToggleTwice | src/App.js:343-349 | two clicks on the selected column restore the configuration |
| Sorting.ToggleAlternates | src/App.js:343-349 | three clicks on one column end where one click does |
| Sorting.FieldOf | src/App.js:362-418 | `likeRatio` and `cii` select the same key; `subs` selects the constant key |
| Sorting.KeyValue | src/App.js:359-415 | title compares the decoded, lower-cased title; channel the lower-cased channel; type "롱폼" exactly for long-form; views, likes and comments their counts (missing as 0); subs the constant 10000; date the timestamp; duration the parsed seconds; subViewRatio views/10000; likeRatio likes over the ratio denominator |
| Sorting.ValueLessStrict | src/App.js:420-421 | the value order is irreflexive and asymmetric |
| Sorting.ValueLessTransitive | src/App.js:420-421 | the value order is transitive |
| Sorting.ValueLessTrichotomy | src/App.js:420-421 | any two values are less, equal or greater |
| Sorting.Compare | src/App.js:416-422 | the comparator returns only -1, 0 or 1, and 0 for every pair under an unknown key |
| Sorting.CompareMeaning | src/App.js:420-422 | ascending keeps non-decreasing values in front and descending non-increasing ones; the comparator returns 0 exactly on equal values and is antisymmetric |
| Sorting.BeforeTotal | src/App.js:420-422 | of any two rows, one may stay in front of the other |
| Sorting.BeforeTransitive | src/App.js:420-422 | the comparator's order is transitive, so the sort is well defined |
| Sorting.BeforeFnPreorder | src/App.js:354-423 | the comparator is a total preorder under every key and direction |
| Sorting.SortedVideos | src/App.js:351-426 | the displayed rows are a permutation of the rows, and they are the rows unchanged while no column is selected |
| Sorting.SortedVideosOrdered | src/App.js:353-423 | under a selected column the displayed values are non-decreasing (ascending) or non-increasing (descending) |
| Sorting.SortedVideosStable | src/App.js:354-423 | rows with equal values in the selected column keep their input order |
| Sorting.SortedVideosKeepsOrder | src/App.js:375-417 | under `subs` or an unknown key the rows keep their order |
| Sorting.SortedVideosIdempotent | src/App.js:351-426 | sorting the displayed rows again changes nothing |
| Sorting.NumericColumn | src/App.js:420-422 | a numeric column whose value is a measure of the row sorts the rows by that measure in the direction's order |
| Sorting.TextColumn | src/App.js:420-422 | a text column whose value is a text of the row sorts the rows by that text in JavaScript's string order |
| Sorting.SortedByViews | src/App.js:371-374 | sorting by views orders the rows by view count, a missing count as 0 |
| Sorting.SortedByLikes | src/App.js:387-390 | sorting by likes orders the rows by like count, a missing count as 0 |
| Sorting.SortedByComments | src/App.js:391-394 | sorting by comments orders the rows by comment count, a missing count as 0 |
| Sorting.SortedByDuration | src/App.js:383-386 | sorting by duration orders the rows by the parsed length in seconds |
| Sorting.SortedByDate | src/App.js:379-382 | sorting by date orders the rows by publication time |
| Sorting.SortedBySubViewRatio | src/App.js:395-398 | sorting by views per subscriber orders the rows by view count, since every row has the same subscriber count |
| Sorting.SortedByLikeRatio | src/App.js:399-407 | sorting by `likeRatio` or by `cii` orders the rows by likes per view, a missing view count as 1 |
| Sorting.SortedByTitle | src/App.js:359-366 | sorting by title orders the rows by the decoded, lower-cased title |
| Sorting.SortedByChannel | src/App.js:367-370 | sorting by channel orders the rows by the lower-cased channel name |
| Sorting.TypeLabelsOrdered | src/App.js:408-421 | the label "롱폼" is below "쇼츠" and not the other way round |
| Sorting.LongFormBeforeShorts | src/App.js:408-423 | in the rows sorted by type, ascending puts every long-form row before every short, and descending every short before every long-form row |
| History.Record | src/App.js:201-209 | the new entry is first; no other entry has its term; the older entries with other terms follow in order, cut to 50 entries in total |
| History.DeleteItem | src/App.js:249-253 | no entry with the id remains, and every other entry is kept as often as it was |
| History.Clear | src/App.js:244-247 | the history is emptied only when confirmed, and unchanged otherwise |
| History.DeleteItemConcat | src/App.js:249-253 | deleting works piecewise, so the kept entries stay in their order |
| History.DeleteItemAbsent | src/App.js:249-253 | deleting an id no entry carries changes nothing |
| History.DeleteItemIdempotent | src/App.js:249-253 | deleting the same id twice is deleting it once |
| History.RecordWellFormed | src/App.js:201-209 | recording keeps the history at most 50 entries with no term twice |
| History.DeleteItemWellFormed | src/App.js:249-253 | deleting keeps that invariant |
| History.ClearWellFormed | src/App.js:244-247 | clearing keeps that invariant |
| History.ClearIsDeletingEvery | src/App.js:244-253 | a confirmed clear equals deleting, one after another, ids that cover every entry |
| History.FilterRecorded | src/App.js:206-209 | filtering out the term just recorded leaves the entries behind the new one |
| History.RecordAgain | src/App.js:201-209 | searching a term again only refreshes its entry: recording it twice equals recording the later entry once |
| Search.CandidateIds | src/App.js:187 | the phase-2 `id` list is the hits' video ids in hit order |
| Search.Accepted | src/App.js:128-133 | a search passes the guards exactly when an API key is set and the query has a character that is not white space |
| Search.Run | src/App.js:127-222 | no API key switches to the settings tab and changes nothing else; a blank query changes nothing; an accepted search shows the query and resets the sort; a date window out of range fails before anything is sent; otherwise the request built from the settings is sent with its window start `days` days before the clock; a hit-less answer empties the rows; a full answer shows the merged rows and records the term; errors and thrown failures keep rows and history; phase 2 is asked exactly for the hits |
| Search.RunKeepsHistoryWellFormed | src/App.js:201-209 | every search keeps the history at most 50 entries with no term twice |
| Search.FoundShowsHitsInOrder | src/App.js:138-199 | after a successful search the table shows one row per hit in response order, because the sort was reset |
| Search.FoundRecordsTerm | src/App.js:201-209 | after a successful search the term heads the history and no other entry carries it |
| Search.FailureKeepsResults | src/App.js:136-220 | a date window out of range, an API error or a thrown failure changes only the shown query and the sort |
| Search.LongPeriodFails | src/App.js:163-220 | a period of 200 000 000 days or more from a date since 1970 fails: no request, no phase 2, rows and history unchanged |
| Search.ShortPeriodSends | src/App.js:163-178 | a period of at most 100 000 000 days from a date since 1970 sends the request, with the window start that many days before the clock |
| Search.CustomLongPeriodFails | src/App.js:160-220 | the custom period "200000000" makes a search with a key and a query fail before anything is sent |

## Left out

- Records.RatioViews: a present view count of 0 is read as 1. The source divides by zero there, which gives NaN or +Infinity. A NaN makes the comparator inconsistent, and the order JavaScript then produces is implementation-defined.
- Sorting.ValueLess: numbers are ordered below strings only to make the relation total. No column mixes the two kinds, so the comparator never compares across them.
- Sorting.KeyValue: numbers are exact rationals, not doubles, so rounding of the ratios is not modelled. The date column compares `publishedAt` as a given integer timestamp; parsing the ISO date text is not modelled.
- Engagement.Badge: the percentage is an exact rational, not a double. Floating-point rounding right at the 2% and 4% thresholds is not modelled.
- Text.AsciiLower and Text.AsciiUpper map ASCII letters only. JavaScript's `toLowerCase`/`toUpperCase` also map other scripts.
- Text.StrLess compares characters by code point. JavaScript compares UTF-16 code units, which differs only for characters outside the Basic Multilingual Plane.
- Query.WindowStart: computes in UTC on exact integers. The local time-zone offset and daylight-saving shifts that `setDate` applies are not modelled; they can move the range boundary by hours. The ISO text of `publishedAfter` is not modelled either, only its time value.
- Query.ParseInt: reads a digit run as an exact unbounded integer. JavaScript's `parseInt` returns a double, so values above 2^53 round, from 1e21 on the URL carries exponent notation, and 309 or more digits give Infinity. The same holds for the day count of Query.PeriodDays.
- Duration.Seconds: the hours, minutes and seconds are exact integers, and the sum is not rounded to a double.
- Query.BuildRequest: the URL text itself is not modelled, including percent-encoding of the query and the API key parameter. The request is the record of parameters that vary.
- Records.Merge: the object spread `{...item, ...detail}` overwrites the hit's `id` with the detail's string id. The row keeps the hit and the detail side by side instead, and `exactVideoId` carries the id as in the source.
- Records.Detail: counters are given as natural numbers. The API sends them as decimal strings, which `Number` converts.
- Search.Run: `isSearching`, the status line, the three-second timer, `alert` and the localStorage write-back of the history are not modelled. They are display or I/O and do not affect the modelled state.
- Search.Run: `Date.now()` and `toLocaleString("ko-KR")` are arguments, not clock reads.
- Search.Run: a query holding an unpaired UTF-16 surrogate makes `encodeURIComponent` throw a URIError before the request is sent. The catch branch then keeps the rows and the history. The model cannot hold such a query, because a Dafny character is a Unicode scalar value and not a UTF-16 code unit, so the model never takes this path. Its claim that an accepted search sends the request holds only for well-formed strings.
- The result filters (type, CII tiers, view and subscriber ranges) are not modelled. The sidebar stores them, but the table never applies them.
- The fixed subscriber count of 10000 is kept only as the `subs` sort value (`Sorting.SUBSCRIBERS`). The subscriber and view/subscriber display columns are not modelled.
- Rendering is not modelled: JSX, themes, `formatNum`, `formatDate`, thumbnail handling and `window.open`.
- Other page actions are not modelled: `clearResults`, `handleApiReset`, `resetSidebarFilters`, and API-key and theme storage.

=== FILE: duration.dfy ===
/** The duration codec: `parseDurationToSeconds`, `formatDuration` and the
    long-form / shorts classification of a video's `contentDetails.duration`.
    Both conversions run the regular expression
    `PT(?:(\d+)H)?(?:(\d+)M)?(?:(\d+)S)?` without anchors, which `MatchDuration`
    models: the match starts at the first `PT` and each optional group takes
    the maximal digit run when the unit letter follows it. */
module Duration {
  import opened Wrappers
  import opened Text

  /** The three capture groups of a successful match, as digit strings. */
  datatype DurationMatch = DurationMatch(hours: Option<string>, minutes: Option<string>, seconds: Option<string>)

  predicate IsDigitGroup(g: Option<string>) {
    g.Some? ==> |g.value| > 0 && AllRadixDigits(g.value, 10)
  }

  predicate WellFormedMatch(m: DurationMatch) {
    IsDigitGroup(m.hours) && IsDigitGroup(m.minutes) && IsDigitGroup(m.seconds)
  }

  predicate PTAt(s: string, j: nat)
    requires j + 1 < |s|
  {
    s[j] == 'P' && s[j + 1] == 'T'
  }

  /** The first index at or after `from` where `PT` occurs. */
  function FindPT(s: string, from: nat): (r: Option<nat>)
    requires from <= |s|
    ensures r.Some? ==> from <= r.value && r.value + 1 < |s| && PTAt(s, r.value)
    ensures r.Some? ==> forall j :: from <= j < r.value ==> !PTAt(s, j)
    ensures r.None? ==> forall j :: from <= j && j + 1 < |s| ==> !PTAt(s, j)
    decreases |s| - from
  {
    if from + 1 >= |s| then None
    else if PTAt(s, from) then Some(from)
    else FindPT(s, from + 1)
  }

  /** One optional group `(?:(\d+)U)?` tried at index `p`: the captured digits,
      if any, and the index where matching continues. */
  function Group(s: string, p: nat, unit: char): (g: (Option<string>, nat))
    requires p <= |s|
    ensures IsDigitGroup(g.0)
    ensures g.0.None? ==> g.1 == p
    ensures g.0.Some? ==> g.1 == p + |g.0.value| + 1 <= |s| && s[g.1 - 1] == unit
  {
    var n := DigitRun(s, p, 10);
    DigitRunDigits(s, p, 10);
    if n > 0 && p + n < |s| && s[p + n] == unit then (Some(s[p..p + n]), p + n + 1) else (None, p)
  }

  /** The three optional groups tried in turn from index `p`. */
  function GroupsFrom(s: string, p: nat): (m: DurationMatch)
    requires p <= |s|
    ensures WellFormedMatch(m)
  {
    var h := Group(s, p, 'H');
    var min := Group(s, h.1, 'M');
    var sec := Group(s, min.1, 'S');
    DurationMatch(h.0, min.0, sec.0)
  }

  /** `pt.match(...)`: no match exactly when `PT` does not occur in `s`. */
  function MatchDuration(s: string): (m: Option<DurationMatch>)
    ensures m.None? <==> forall j :: 0 <= j && j + 1 < |s| ==> !PTAt(s, j)
    ensures m.Some? ==> WellFormedMatch(m.value)
  {
    match FindPT(s, 0)
    case None => None
    case Some(i) => Some(GroupsFrom(s, i + 2))
  }

  /** `parseInt(group || 0, 10)`: an absent group counts as zero. */
  function GroupValue(g: Option<string>): nat
    requires IsDigitGroup(g)
  {
    if g.None? then 0 else DigitsValue(g.value, 10)
  }

  /** `parseDurationToSeconds`: an absent or empty duration, or one without a
      `PT` match, gives 0. */
  function Seconds(pt: Option<string>): (r: nat)
    ensures pt.None? || pt.value == "" ==> r == 0
    ensures pt.Some? && MatchDuration(pt.value).None? ==> r == 0
  {
    if pt.None? || pt.value == "" then 0
    else
      match MatchDuration(pt.value)
      case None => 0
      case Some(m) => GroupValue(m.hours) * 3600 + GroupValue(m.minutes) * 60 + GroupValue(m.seconds)
  }

  /** `x.padStart(2, "0")`. */
  function PadStart2(x: string): (r: string)
    ensures |r| == if |x| >= 2 then |x| else 2
    ensures r[|r| - |x|..] == x
    ensures forall i :: 0 <= i < |r| - |x| ==> r[i] == '0'
  {
    if |x| >= 2 then x else if |x| == 1 then "0" + x else "00"
  }

  /** `formatDuration`: `-` for an absent or empty duration, the input itself
      when `PT` does not occur in it, and otherwise `H:MM:SS` or `M:SS`. */
  function Format(pt: Option<string>): (r: string)
    ensures pt.None? || pt.value == "" ==> r == "-"
    ensures pt.Some? && pt.value != "" && MatchDuration(pt.value).None? ==> r == pt.value
  {
    if pt.None? || pt.value == "" then "-"
    else
      match MatchDuration(pt.value)
      case None => pt.value
      case Some(m) =>
        var h := m.hours.GetOr("");
        var min := m.minutes.GetOr("0");
        var sec := if m.seconds.Some? then PadStart2(m.seconds.value) else "00";
        if h != "" then h + ":" + PadStart2(min) + ":" + sec else min + ":" + sec
  }

  datatype ContentType = LongForm | Shorts

  /** The type column and the `type` sort key: long-form exactly when the raw
      duration text contains `M` anywhere. */
  function Classify(duration: Option<string>): (t: ContentType)
    ensures duration.None? ==> t == Shorts
    ensures t == LongForm <==> 'M' in duration.GetOr("")
  {
    if Contains(duration.GetOr(""), 'M') then LongForm else Shorts
  }

  /** The labels shown and compared for the two content types. */
  function Label(t: ContentType): string {
    match t
    case LongForm => "롱폼"
    case Shorts => "쇼츠"
  }

  // ----- The encoding the platform produces, as an independent reference -----

  /** One `#U` piece of the encoding, or nothing when the group is absent. */
  function Piece(g: Option<string>, unit: char): string {
    if g.None? then "" else g.value + [unit]
  }

  /** The `PT#H#M#S` text whose groups are the given digit strings. */
  function RenderGroups(m: DurationMatch): string {
    "PT" + Piece(m.hours, 'H') + Piece(m.minutes, 'M') + Piece(m.seconds, 'S')
  }

  /** `s` holds the piece for group `g` with unit `u` at index `p`. */
  predicate PieceAt(s: string, p: nat, g: Option<string>, u: char) {
    && p + |Piece(g, u)| <= |s|
    && forall i :: 0 <= i < |Piece(g, u)| ==> s[p + i] == Piece(g, u)[i]
  }

  /** Where the three pieces of a rendered duration sit. */
  lemma RenderPieces(m: DurationMatch, s: string)
    requires s == RenderGroups(m)
    ensures var a, b, c := Piece(m.hours, 'H'), Piece(m.minutes, 'M'), Piece(m.seconds, 'S');
            && |s| == 2 + |a| + |b| + |c|
            && PieceAt(s, 2, m.hours, 'H')
            && PieceAt(s, 2 + |a|, m.minutes, 'M')
            && PieceAt(s, 2 + |a| + |b|, m.seconds, 'S')
  {
  }

  /** A digit group followed by the letter `u` at index `p` is captured by the
      group whose unit is `u`, and by no other group. */
  lemma GroupOnDigits(s: string, p: nat, ds: string, u: char, unit: char)
    requires |ds| > 0 && AllRadixDigits(ds, 10) && !IsDigit(u)
    requires PieceAt(s, p, Some(ds), u)
    ensures Group(s, p, unit) == if u == unit then (Some(ds), p + |ds| + 1) else (None, p)
  {
    var piece := Piece(Some(ds), u);
    assert piece == ds + [u];
    assert s[p + |ds|] == piece[|ds|] == u;
    forall i | p <= i < p + |ds| ensures s[i] == ds[i - p] {
      assert s[p + (i - p)] == piece[i - p];
    }
    DigitRunExact(s, p, |ds|, 10);
    assert s[p..p + |ds|] == ds;
  }

  /** A group tried where the pieces `x` (its own) and then `y` or `z` may
      follow, or the text ends, captures exactly `x`. */
  lemma GroupStep(s: string, p: nat, x: Option<string>, ux: char, y: Option<string>, uy: char,
                  z: Option<string>, uz: char)
    requires IsDigitGroup(x) && IsDigitGroup(y) && IsDigitGroup(z)
    requires !IsDigit(ux) && (y.Some? ==> !IsDigit(uy) && uy != ux) && (z.Some? ==> !IsDigit(uz) && uz != ux)
    requires PieceAt(s, p, x, ux) && PieceAt(s, p + |Piece(x, ux)|, y, uy)
    requires PieceAt(s, p + |Piece(x, ux)| + |Piece(y, uy)|, z, uz)
    requires |s| == p + |Piece(x, ux)| + |Piece(y, uy)| + |Piece(z, uz)|
    ensures Group(s, p, ux) == (x, p + |Piece(x, ux)|)
  {
    if x.Some? {
      GroupOnDigits(s, p, x.value, ux, ux);
    } else if y.Some? {
      GroupOnDigits(s, p, y.value, uy, ux);
    } else if z.Some? {
      GroupOnDigits(s, p, z.value, uz, ux);
    }
  }

  /** A group followed by one more piece and the end of the text. */
  lemma GroupBeforeLast(s: string, p: nat, x: Option<string>, ux: char, y: Option<string>, uy: char)
    requires IsDigitGroup(x) && IsDigitGroup(y) && !IsDigit(ux) && !IsDigit(uy) && uy != ux
    requires PieceAt(s, p, x, ux) && PieceAt(s, p + |Piece(x, ux)|, y, uy)
    requires |s| == p + |Piece(x, ux)| + |Piece(y, uy)|
    ensures Group(s, p, ux) == (x, p + |Piece(x, ux)|)
  {
    assert PieceAt(s, |s|, None, ux);
    GroupStep(s, p, x, ux, y, uy, None, ux);
  }

  /** A group followed by the end of the text. */
  lemma GroupLast(s: string, p: nat, x: Option<string>, ux: char)
    requires IsDigitGroup(x) && !IsDigit(ux)
    requires PieceAt(s, p, x, ux) && |s| == p + |Piece(x, ux)|
    ensures Group(s, p, ux) == (x, p + |Piece(x, ux)|)
  {
    assert PieceAt(s, |s|, None, ux);
    GroupStep(s, p, x, ux, None, ux, None, ux);
  }

  /** Text holding the three pieces of `m` from index 2 to its end yields
      the groups of `m`. */
  lemma GroupsOfPieces(m: DurationMatch, s: string)
    requires WellFormedMatch(m)
    requires var a, b, c := Piece(m.hours, 'H'), Piece(m.minutes, 'M'), Piece(m.seconds, 'S');
             && |s| == 2 + |a| + |b| + |c|
             && PieceAt(s, 2, m.hours, 'H')
             && PieceAt(s, 2 + |a|, m.minutes, 'M')
             && PieceAt(s, 2 + |a| + |b|, m.seconds, 'S')
    ensures GroupsFrom(s, 2) == m
  {
    var p1 := 2 + |Piece(m.hours, 'H')|;
    var p2 := p1 + |Piece(m.minutes, 'M')|;
    GroupStep(s, 2, m.hours, 'H', m.minutes, 'M', m.seconds, 'S');
    GroupBeforeLast(s, p1, m.minutes, 'M', m.seconds, 'S');
    GroupLast(s, p2, m.seconds, 'S');
    var h := Group(s, 2, 'H');
    var min := Group(s, h.1, 'M');
    var sec := Group(s, min.1, 'S');
    assert h == (m.hours, p1) && min == (m.minutes, p2) && sec.0 == m.seconds;
  }

  /** After the leading `PT`, the three groups capture the rendered pieces. */
  lemma GroupsOfRender(m: DurationMatch, s: string)
    requires WellFormedMatch(m) && s == RenderGroups(m)
    ensures GroupsFrom(s, 2) == m
  {
    RenderPieces(m, s);
    GroupsOfPieces(m, s);
  }

  /** Round trip of the matcher: matching the text rendered from well-formed
      groups gives those groups back. */
  lemma MatchRenderGroups(m: DurationMatch)
    requires WellFormedMatch(m)
    ensures MatchDuration(RenderGroups(m)) == Some(m)
  {
    var s := RenderGroups(m);
    assert s[0] == 'P' && s[1] == 'T';
    assert FindPT(s, 0) == Some(0);
    GroupsOfRender(m, s);
  }

  /** The display rule: with an hour group `H:MM:SS` (minutes padded),
      otherwise `M:SS` (minutes unpadded); seconds are padded to two digits and
      absent minutes or seconds show as zero. */
  lemma FormatOfRenderGroups(m: DurationMatch)
    requires WellFormedMatch(m)
    ensures Format(Some(RenderGroups(m))) ==
      var mm := m.minutes.GetOr("0");
      var ss := PadStart2(m.seconds.GetOr("0"));
      if m.hours.Some? then m.hours.value + ":" + PadStart2(mm) + ":" + ss else mm + ":" + ss
  {
    MatchRenderGroups(m);
  }

  /** The classification looks only for the letter `M`: a rendered duration is
      long-form exactly when it has a minutes group, whatever its length. */
  lemma ClassifyRenderGroups(m: DurationMatch)
    requires WellFormedMatch(m)
    ensures Classify(Some(RenderGroups(m))) == LongForm <==> m.minutes.Some?
  {
    var s := RenderGroups(m);
    var a, b, c := Piece(m.hours, 'H'), Piece(m.minutes, 'M'), Piece(m.seconds, 'S');
    assert s == "PT" + a + b + c;
    if m.minutes.Some? {
      assert s[2 + |a| + |b| - 1] == 'M';
    } else {
      forall i | 0 <= i < |s|
        ensures s[i] != 'M'
      {
        if 2 <= i < 2 + |a| {
          assert s[i] == a[i - 2];
        } else if 2 + |a| <= i {
          assert s[i] == c[i - 2 - |a|];
        }
      }
    }
  }

  /** A duration as numeric hour, minute and second components. */
  datatype Parts = Parts(hours: Option<nat>, minutes: Option<nat>, seconds: Option<nat>)

  function DigitsOf(n: Option<nat>): (g: Option<string>)
    ensures IsDigitGroup(g)
  {
    if n.None? then None else Some(NatToDigits(n.value))
  }

  /** The platform's encoding of a duration: decimal components, absent ones omitted. */
  function Render(d: Parts): string {
    RenderGroups(DurationMatch(DigitsOf(d.hours), DigitsOf(d.minutes), DigitsOf(d.seconds)))
  }

  function TotalSeconds(d: Parts): nat {
    d.hours.GetOr(0) * 3600 + d.minutes.GetOr(0) * 60 + d.seconds.GetOr(0)
  }

  /** Round trip: parsing an encoded duration gives h*3600 + m*60 + s, with
      absent components counted as zero. */
  lemma SecondsOfRender(d: Parts)
    ensures Seconds(Some(Render(d))) == TotalSeconds(d)
  {
    var m := DurationMatch(DigitsOf(d.hours), DigitsOf(d.minutes), DigitsOf(d.seconds));
    MatchRenderGroups(m);
    assert GroupValue(m.hours) == d.hours.GetOr(0);
    assert GroupValue(m.minutes) == d.minutes.GetOr(0);
    assert GroupValue(m.seconds) == d.seconds.GetOr(0);
  }
}

=== FILE: engagement.dfy ===
/** `getCIIBadge`: the engagement tier of a video from its like and view
    counts. The source computes `(likes / views) * 100 || 0` in floating point;
    here the percentage is an exact rational, with the two IEEE cases a zero
    view count produces kept: 0/0 is NaN, which `|| 0` turns into 0, and a
    positive count over 0 is +Infinity. */
module Engagement {

  datatype Tier = Bad | Good | Great

  /** Tiers in increasing order of quality. */
  function Rank(t: Tier): nat {
    match t
    case Bad => 0
    case Good => 1
    case Great => 2
  }

  /** A like-to-view percentage as JavaScript computes it. */
  datatype Percent = Finite(value: real) | Infinite

  function LikePercent(likes: nat, views: nat): Percent {
    if views == 0 then (if likes == 0 then Finite(0.0) else Infinite)
    else Finite((likes as real) / (views as real) * 100.0)
  }

  /** The thresholds: at least 4 is Great, at least 2 is Good. */
  function TierOf(p: Percent): Tier {
    if p.Infinite? || p.value >= 4.0 then Great
    else if p.value >= 2.0 then Good
    else Bad
  }

  /** Comparing the percentage with a threshold is comparing cross products. */
  lemma PercentAtLeast(likes: nat, views: nat, k: nat)
    requires views > 0
    ensures LikePercent(likes, views).value >= k as real <==> 100 * likes >= k * views
  {
    var l, v := likes as real, views as real;
    var q := l / v;
    assert q * v == l;
    if 100 * likes >= k * views {
      assert q * 100.0 * v >= (k as real) * v;
    } else {
      assert q * 100.0 * v < (k as real) * v;
    }
  }

  /** The tier of `likes` likes on `views` views, stated over integers: with
      views, Great exactly when likes*100 >= 4*views and Good exactly when
      2*views <= likes*100 < 4*views; without views, Great when there are
      likes and Bad when there are none. */
  function Badge(likes: nat, views: nat): (t: Tier)
    ensures views > 0 ==> (t == Great <==> 100 * likes >= 4 * views)
    ensures views > 0 ==> (t == Good <==> 2 * views <= 100 * likes < 4 * views)
    ensures views > 0 ==> (t == Bad <==> 100 * likes < 2 * views)
    ensures views == 0 ==> (t == Great <==> likes > 0) && (t == Bad <==> likes == 0)
  {
    if views > 0 then
      PercentAtLeast(likes, views, 4);
      PercentAtLeast(likes, views, 2);
      TierOf(LikePercent(likes, views))
    else
      TierOf(LikePercent(likes, views))
  }

  /** For a fixed view count, more likes never lower the tier. */
  lemma BadgeMonotoneInLikes(l1: nat, l2: nat, views: nat)
    requires l1 <= l2
    ensures Rank(Badge(l1, views)) <= Rank(Badge(l2, views))
  {
  }

  /** For a fixed like count, more views never raise the tier. */
  lemma BadgeAntitoneInViews(likes: nat, v1: nat, v2: nat)
    requires v1 <= v2
    ensures Rank(Badge(likes, v2)) <= Rank(Badge(likes, v1))
  {
  }

  lemma BadgeExamples()
    ensures Badge(5, 100) == Great
    ensures Badge(2, 100) == Good
    ensures Badge(1, 100) == Bad
    ensures Badge(0, 0) == Bad
  {
  }
}

=== FILE: entities.dfy ===
/** `decodeHTMLEntities`: one left-to-right pass of a global regular-expression
    replace over six fixed entities. The search API returns video titles with
    these characters escaped; the decoder undoes that for display and sorting. */
module Entities {
  import opened Wrappers
  import opened Text

  /** The entity that `s` starts with, if any, as its length and the character
      it stands for. The alternatives share no prefix, so their order does not
      matter. */
  function EntityAt(s: string): (e: Option<(nat, char)>)
    ensures e.Some? ==> 0 < e.value.0 <= |s| && s[0] == '&'
    ensures |s| > 0 && s[0] != '&' ==> e.None?
  {
    if "&quot;" <= s then Some((6, '"'))
    else if "&#39;" <= s then Some((5, '\''))
    else if "&amp;" <= s then Some((5, '&'))
    else if "&lt;" <= s then Some((4, '<'))
    else if "&gt;" <= s then Some((4, '>'))
    else if "&#34;" <= s then Some((5, '"'))
    else None
  }

  /** An entity occurrence starts at index `i` of `s`. */
  predicate EntityStartsAt(s: string, i: nat)
    requires i <= |s|
  {
    EntityAt(s[i..]).Some?
  }

  /** Replaces every entity occurrence by its character, scanning once from the
      left and resuming after each replacement, so replaced text is never
      scanned again. Text without `&` comes back unchanged. */
  function Decode(s: string): (r: string)
    ensures |r| <= |s|
    ensures !Contains(s, '&') ==> r == s
    decreases |s|
  {
    if |s| == 0 then ""
    else
      match EntityAt(s)
      case Some((n, c)) =>
        assert EntityStartsAt(s, 0);
        [c] + Decode(s[n..])
      case None =>
        assert !Contains(s, '&') ==> !Contains(s[1..], '&');
        [s[0]] + Decode(s[1..])
  }

  /** The output is shorter than the input exactly when an entity occurs
      somewhere in it. That every occurrence is replaced follows from
      `DecodeEntity`, `DecodeOther` and `DecodePlain` below. */
  lemma {:induction false} DecodeShortensIffEntity(s: string)
    ensures |Decode(s)| < |s| <==> exists i :: 0 <= i < |s| && EntityStartsAt(s, i)
    decreases |s|
  {
    if |s| > 0 {
      match EntityAt(s)
      case Some((n, c)) =>
        assert EntityStartsAt(s, 0);
      case None =>
        DecodeShortensIffEntity(s[1..]);
        assert !EntityStartsAt(s, 0);
        forall i | 1 <= i < |s| ensures EntityStartsAt(s, i) <==> EntityStartsAt(s[1..], i - 1) {
          assert s[1..][i - 1..] == s[i..];
        }
        if exists i :: 0 <= i < |s| && EntityStartsAt(s, i) {
          var i :| 0 <= i < |s| && EntityStartsAt(s, i);
          assert EntityStartsAt(s[1..], i - 1);
        }
        if exists j :: 0 <= j < |s| - 1 && EntityStartsAt(s[1..], j) {
          var j :| 0 <= j < |s| - 1 && EntityStartsAt(s[1..], j);
          assert EntityStartsAt(s, j + 1);
        }
    }
  }

  /** The escaping the API applies to a character, so that the decoder has
      something to undo. */
  function EscapeChar(c: char): string {
    match c
    case '&' => "&amp;"
    case '<' => "&lt;"
    case '>' => "&gt;"
    case '"' => "&quot;"
    case '\'' => "&#39;"
    case _ => [c]
  }

  /** Escapes every character of `s`. */
  function Escape(s: string): string
    decreases |s|
  {
    if |s| == 0 then "" else EscapeChar(s[0]) + Escape(s[1..])
  }

  /** Decoding consumes exactly one escaped character at the front. */
  lemma DecodeEscapedChar(c: char, t: string)
    ensures Decode(EscapeChar(c) + t) == [c] + Decode(t)
  {
    var e := EscapeChar(c);
    var s := e + t;
    assert s[|e|..] == t;
    assert e <= s;
    assert s[..|e|] == e;
    if c == '&' {
      assert s[1] == 'a';
      assert EntityAt(s) == Some((5, '&'));
    } else if c == '<' {
      assert s[1] == 'l';
      assert EntityAt(s) == Some((4, '<'));
    } else if c == '>' {
      assert s[1] == 'g';
      assert EntityAt(s) == Some((4, '>'));
    } else if c == '"' {
      assert EntityAt(s) == Some((6, '"'));
    } else if c == '\'' {
      assert s[1] == '#' && s[2] == '3' && s[3] == '9';
      assert EntityAt(s) == Some((5, '\''));
    } else {
      assert s[0] == c;
      assert EntityAt(s) == None;
    }
  }

  /** Round trip: decoding undoes escaping. */
  lemma {:induction false} DecodeEscape(s: string)
    ensures Decode(Escape(s)) == s
    decreases |s|
  {
    if |s| > 0 {
      DecodeEscapedChar(s[0], Escape(s[1..]));
      DecodeEscape(s[1..]);
      assert [s[0]] + s[1..] == s;
    }
  }

  /** The pass is not recursive: text escaped twice comes back escaped once,
      so `&amp;lt;` decodes to `&lt;` and not to `<`. */
  lemma DecodeIsSinglePass(s: string)
    ensures Decode(Escape(Escape(s))) == Escape(s)
  {
    DecodeEscape(Escape(s));
  }

  lemma DecodeDoubleEscapedLessThan()
    ensures Decode("&amp;lt;") == "&lt;"
  {
    var s := "&amp;lt;";
    assert s[1] == 'a';
    assert EntityAt(s) == Some((5, '&'));
    assert s[5..] == "lt;";
    assert !Contains("lt;", '&');
  }

  // ----- the replacement table, entry by entry -----

  /** The six entries of the decoder's table: entity text and the character
      it stands for. */
  const ENTITIES: seq<(string, char)> :=
    [("&quot;", '"'), ("&#39;", '\''), ("&amp;", '&'), ("&lt;", '<'), ("&gt;", '>'), ("&#34;", '"')]

  /** Every table entity at the front is replaced by its character, and
      decoding resumes right after it. */
  lemma DecodeEntity(k: nat, t: string)
    requires k < |ENTITIES|
    ensures Decode(ENTITIES[k].0 + t) == [ENTITIES[k].1] + Decode(t)
  {
    var e := ENTITIES[k].0;
    var s := e + t;
    assert s[|e|..] == t;
    assert s[..|e|] == e;
    assert e <= s;
    if k == 0 {
      assert EntityAt(s) == Some((6, '"'));
    } else if k == 1 {
      assert s[1] == '#' && s[2] == '3' && s[3] == '9';
      assert EntityAt(s) == Some((5, '\''));
    } else if k == 2 {
      assert s[1] == 'a';
      assert EntityAt(s) == Some((5, '&'));
    } else if k == 3 {
      assert s[1] == 'l';
      assert EntityAt(s) == Some((4, '<'));
    } else if k == 4 {
      assert s[1] == 'g';
      assert EntityAt(s) == Some((4, '>'));
    } else {
      assert s[1] == '#' && s[2] == '3' && s[3] == '4';
      assert EntityAt(s) == Some((5, '"'));
    }
  }

  /** A character that does not start a table entity is kept, and decoding
      resumes at the next character. */
  lemma DecodeOther(c: char, t: string)
    requires forall k :: 0 <= k < |ENTITIES| ==> !(ENTITIES[k].0 <= [c] + t)
    ensures Decode([c] + t) == [c] + Decode(t)
  {
    var s := [c] + t;
    assert !(ENTITIES[0].0 <= s) && !(ENTITIES[1].0 <= s) && !(ENTITIES[2].0 <= s);
    assert !(ENTITIES[3].0 <= s) && !(ENTITIES[4].0 <= s) && !(ENTITIES[5].0 <= s);
    assert EntityAt(s) == None;
    assert s[1..] == t;
  }

  /** A character other than `&` is copied, and decoding resumes at the next
      character. */
  lemma DecodeKeeps(c: char, t: string)
    requires c != '&'
    ensures Decode([c] + t) == [c] + Decode(t)
  {
    var s := [c] + t;
    assert s[0] == c && s[1..] == t;
  }

  /** Splitting off the first element of a non-empty front part. */
  lemma ConsSplit(x: string, u: string)
    requires |x| > 0
    ensures [x[0]] + (x[1..] + u) == x + u
  {
    assert [x[0]] + x[1..] == x;
  }

  /** A leading character other than `&` is copied and decoding goes on after it. */
  lemma DecodeFirstPlain(x: string, t: string)
    requires |x| > 0 && x[0] != '&'
    ensures Decode(x + t) == [x[0]] + Decode(x[1..] + t)
  {
    DecodeKeeps(x[0], x[1..] + t);
    ConsSplit(x, t);
  }

  /** Text without `&` in front of the rest is copied, and decoding goes on
      with the rest. */
  lemma {:induction false} DecodePlain(x: string, t: string)
    requires forall i :: 0 <= i < |x| ==> x[i] != '&'
    ensures Decode(x + t) == x + Decode(t)
    decreases |x|
  {
    if |x| > 0 {
      DecodePlain(x[1..], t);
      DecodeFirstPlain(x, t);
      ConsSplit(x, Decode(t));
    } else {
      assert x + t == t;
    }
  }

  /** The pieces of the mixed example, in the order the decoder meets them. */
  lemma MixedPieces()
    ensures "a " + (['&'] + (" b " + (ENTITIES[3].0 + " c"))) == "a & b &lt; c"
    ensures "a " + (['&'] + (" b " + (['<'] + " c"))) == "a & b < c"
    ensures forall k :: 0 <= k < |ENTITIES| ==> ENTITIES[k].0[1] != ' '
  {
  }

  /** A lone `&` is kept and an entity after it is still replaced. */
  lemma DecodeMixedExample()
    ensures Decode("a & b &lt; c") == "a & b < c"
  {
    MixedPieces();
    var c := " c";
    var rest := " b " + (ENTITIES[3].0 + c);
    assert !Contains(c, '&');
    DecodeEntity(3, c);
    DecodePlain(" b ", ENTITIES[3].0 + c);
    forall k | 0 <= k < |ENTITIES| ensures !(ENTITIES[k].0 <= ['&'] + rest) {
      assert (['&'] + rest)[1] == ' ';
    }
    DecodeOther('&', rest);
    DecodePlain("a ", ['&'] + rest);
  }

  /** The numeric entity for the double quote is decoded like `&quot;`. */
  lemma DecodeNumericQuote()
    ensures Decode("&#34;") == "\""
  {
    DecodeEntity(5, "");
    assert ENTITIES[5].0 + "" == "&#34;";
  }
}

=== FILE: history.dfy ===
/** The search history: recording a successful search (in `handleSearch`),
    `deleteHistoryItem` and `clearHistory`. The list is newest first, holds
    each term at most once and keeps at most 50 entries. */
module History {
  import opened Seqs

  const MAX_ENTRIES: nat := 50

  /** One history entry. `id` stands for the `Date.now()` value taken when it
      was recorded and `date` for its localised display text. */
  datatype Entry = Entry(id: int, term: string, date: string)

  /** Entries whose term differs from `term`. */
  function OtherTerm(term: string): Entry -> bool {
    (e: Entry) => e.term != term
  }

  /** Entries whose id differs from `id`. */
  function OtherId(id: int): Entry -> bool {
    (e: Entry) => e.id != id
  }

  predicate UniqueTerms(h: seq<Entry>) {
    forall i, j :: 0 <= i < j < |h| ==> h[i].term != h[j].term
  }

  /** The invariant every operation keeps: at most 50 entries, no term twice. */
  predicate WellFormed(h: seq<Entry>) {
    |h| <= MAX_ENTRIES && UniqueTerms(h)
  }

  /** Recording a search of `e.term`: the new entry goes in front, older entries
      with the same term are removed, and the list is cut to 50 entries. */
  function Record(h: seq<Entry>, e: Entry): (r: seq<Entry>)
    ensures 1 <= |r| <= MAX_ENTRIES
    ensures r[0] == e
    ensures forall i :: 1 <= i < |r| ==> r[i].term != e.term
    ensures |r| == if |Filter(h, OtherTerm(e.term))| < MAX_ENTRIES then |Filter(h, OtherTerm(e.term))| + 1 else MAX_ENTRIES
    ensures r[1..] == Filter(h, OtherTerm(e.term))[..|r| - 1]
  {
    var l := [e] + Filter(h, OtherTerm(e.term));
    assert forall i :: 1 <= i < |l| ==> l[i] == Filter(h, OtherTerm(e.term))[i - 1];
    l[..if |l| < MAX_ENTRIES then |l| else MAX_ENTRIES]
  }

  /** `deleteHistoryItem`: removes every entry carrying the id, keeping the
      others in order. */
  function DeleteItem(h: seq<Entry>, id: int): (r: seq<Entry>)
    ensures forall i :: 0 <= i < |r| ==> r[i].id != id
    ensures forall x :: multiset(r)[x] == if x.id != id then multiset(h)[x] else 0
  {
    FilterMultiset(h, OtherId(id));
    Filter(h, OtherId(id))
  }

  /** `clearHistory`: empties the list once the user confirms. */
  function Clear(h: seq<Entry>, confirmed: bool): (r: seq<Entry>)
    ensures confirmed ==> r == []
    ensures !confirmed ==> r == h
  {
    if confirmed then [] else h
  }

  // ----- order and the invariant -----

  /** Deleting works piecewise, so the kept entries stay in their order. */
  lemma DeleteItemConcat(a: seq<Entry>, b: seq<Entry>, id: int)
    ensures DeleteItem(a + b, id) == DeleteItem(a, id) + DeleteItem(b, id)
  {
    FilterConcat(a, b, OtherId(id));
  }

  /** Deleting an id no entry carries changes nothing. */
  lemma DeleteItemAbsent(h: seq<Entry>, id: int)
    requires forall i :: 0 <= i < |h| ==> h[i].id != id
    ensures DeleteItem(h, id) == h
  {
    FilterAll(h, OtherId(id));
  }

  lemma DeleteItemIdempotent(h: seq<Entry>, id: int)
    ensures DeleteItem(DeleteItem(h, id), id) == DeleteItem(h, id)
  {
    DeleteItemAbsent(DeleteItem(h, id), id);
  }

  /** A sequence with unique terms extended by an entry of a new term. */
  lemma UniqueTermsSnoc(s: seq<Entry>, x: Entry)
    requires UniqueTerms(s)
    requires forall i :: 0 <= i < |s| ==> s[i].term != x.term
    ensures UniqueTerms(s + [x])
  {
  }

  /** Filtering keeps terms unique. */
  lemma {:induction false} FilterUniqueTerms(h: seq<Entry>, keep: Entry -> bool)
    requires UniqueTerms(h)
    ensures UniqueTerms(Filter(h, keep))
    decreases |h|
  {
    if |h| > 0 {
      var init, last := h[..|h| - 1], h[|h| - 1];
      assert UniqueTerms(init);
      FilterUniqueTerms(init, keep);
      var f := Filter(init, keep);
      if keep(last) {
        FilterMultiset(init, keep);
        forall i | 0 <= i < |f| ensures f[i].term != last.term {
          assert f[i] in multiset(f);
          assert f[i] in multiset(init);
          var k :| 0 <= k < |init| && init[k] == f[i];
          assert h[k] == f[i];
        }
        UniqueTermsSnoc(f, last);
      }
    }
  }

  lemma RecordWellFormed(h: seq<Entry>, e: Entry)
    requires WellFormed(h)
    ensures WellFormed(Record(h, e))
  {
    var f := Filter(h, OtherTerm(e.term));
    FilterUniqueTerms(h, OtherTerm(e.term));
    var r := Record(h, e);
    forall i, j | 0 <= i < j < |r| ensures r[i].term != r[j].term {
      if i > 0 {
        assert r[i] == f[i - 1] && r[j] == f[j - 1];
      }
    }
  }

  lemma DeleteItemWellFormed(h: seq<Entry>, id: int)
    requires WellFormed(h)
    ensures WellFormed(DeleteItem(h, id))
  {
    FilterUniqueTerms(h, OtherId(id));
  }

  lemma ClearWellFormed(h: seq<Entry>, confirmed: bool)
    requires WellFormed(h)
    ensures WellFormed(Clear(h, confirmed))
  {
  }

  /** Deleting the entries with the given ids, one id after another. */
  function DeleteEach(h: seq<Entry>, ids: seq<int>): seq<Entry>
    decreases |ids|
  {
    if |ids| == 0 then h else DeleteEach(DeleteItem(h, ids[0]), ids[1..])
  }

  /** A confirmed clear is deleting every entry: deleting, one after another,
      ids that cover all entries empties the history just as `clearHistory`
      does. */
  lemma {:induction false} ClearIsDeletingEvery(h: seq<Entry>, ids: seq<int>)
    requires forall i :: 0 <= i < |h| ==> h[i].id in ids
    ensures DeleteEach(h, ids) == Clear(h, true)
    decreases |ids|
  {
    if |ids| > 0 {
      var h' := DeleteItem(h, ids[0]);
      assert ids == [ids[0]] + ids[1..];
      forall i | 0 <= i < |h'| ensures h'[i].id in ids[1..] {
        assert h'[i] in multiset(h');
        assert h'[i] in multiset(h);
        var k :| 0 <= k < |h| && h[k] == h'[i];
        assert h[k].id in ids;
      }
      ClearIsDeletingEvery(h', ids[1..]);
    }
  }

  /** Removing the term just recorded leaves the older entries that follow it. */
  lemma FilterRecorded(h: seq<Entry>, e: Entry)
    ensures Filter(Record(h, e), OtherTerm(e.term)) == Record(h, e)[1..]
  {
    var keep := OtherTerm(e.term);
    var r := Record(h, e);
    var tail := r[1..];
    assert r == [e] + tail;
    forall i | 0 <= i < |tail| ensures keep(tail[i]) {
      assert tail[i] == r[i + 1];
    }
    FilterAll(tail, keep);
    FilterSingleton(e, keep);
    FilterConcat([e], tail, keep);
    assert Filter([e], keep) + Filter(tail, keep) == [] + tail;
  }

  /** Searching a term again only refreshes its entry: recording twice for one
      term is recording once, with the later entry. */
  lemma RecordAgain(h: seq<Entry>, e1: Entry, e2: Entry)
    requires e1.term == e2.term
    ensures Record(Record(h, e1), e2) == Record(h, e2)
  {
    var r1 := Record(h, e1);
    FilterRecorded(h, e1);
    var r, r' := Record(r1, e2), Record(h, e2);
    assert |r| == |r'| == |r1|;
    assert r[1..] == r1[1..] == r'[1..];
    assert r == [r[0]] + r[1..] && r' == [r'[0]] + r'[1..];
  }
}

=== FILE: insertion.dfy ===
/** A stable insertion sort over any total preorder `before` ("may stay in
    front of"). This is the ordering `Array.prototype.sort` must produce for a
    consistent comparator, since the language requires that sort to be stable. */
module InsertionSort {
  import opened Seqs

  /** `before` is total and transitive. */
  ghost predicate TotalPreorder<T(!new)>(before: (T, T) -> bool) {
    && (forall a, b :: before(a, b) || before(b, a))
    && (forall a, b, c :: before(a, b) && before(b, c) ==> before(a, c))
  }

  predicate Sorted<T>(before: (T, T) -> bool, s: seq<T>) {
    forall i, j :: 0 <= i < j < |s| ==> before(s[i], s[j])
  }

  /** `keep` selects elements that are all tied with each other. */
  ghost predicate TieClass<T(!new)>(before: (T, T) -> bool, keep: T -> bool) {
    forall a, b :: keep(a) && keep(b) ==> before(a, b)
  }

  /** Inserts `x` behind every element that may stay in front of it, so that
      of two tied elements the one inserted later stays behind. */
  function Insert<T>(before: (T, T) -> bool, x: T, l: seq<T>): (r: seq<T>)
    ensures |r| == |l| + 1
    ensures multiset(r) == multiset(l) + multiset{x}
    decreases |l|
  {
    if |l| == 0 then [x]
    else
      var init, last := l[..|l| - 1], l[|l| - 1];
      assert l == init + [last];
      if before(last, x) then l + [x]
      else Insert(before, x, init) + [last]
  }

  /** Inserts the elements one by one, in input order. */
  function Sort<T>(before: (T, T) -> bool, s: seq<T>): (r: seq<T>)
    ensures |r| == |s|
    ensures multiset(r) == multiset(s)
    decreases |s|
  {
    if |s| == 0 then []
    else
      assert s == s[..|s| - 1] + [s[|s| - 1]];
      Insert(before, s[|s| - 1], Sort(before, s[..|s| - 1]))
  }

  /** Appending an element that every element may stay in front of keeps a
      sequence sorted. */
  lemma SortedSnoc<T>(before: (T, T) -> bool, p: seq<T>, y: T)
    requires Sorted(before, p)
    requires forall i :: 0 <= i < |p| ==> before(p[i], y)
    ensures Sorted(before, p + [y])
  {
  }

  /** Every element of a multiset drawn from `l` plus `x` may stay in front of
      `y` when all of `l` and `x` may. */
  lemma AllBefore<T>(before: (T, T) -> bool, p: seq<T>, l: seq<T>, x: T, y: T)
    requires multiset(p) == multiset(l) + multiset{x}
    requires forall k :: 0 <= k < |l| ==> before(l[k], y)
    requires before(x, y)
    ensures forall i :: 0 <= i < |p| ==> before(p[i], y)
  {
    forall i | 0 <= i < |p| ensures before(p[i], y) {
      assert p[i] in multiset(p);
      if p[i] != x {
        assert p[i] in multiset(l);
      }
    }
  }

  lemma {:induction false} InsertSorted<T(!new)>(before: (T, T) -> bool, x: T, l: seq<T>)
    requires TotalPreorder(before)
    requires Sorted(before, l)
    ensures Sorted(before, Insert(before, x, l))
    decreases |l|
  {
    if |l| > 0 {
      var init, last := l[..|l| - 1], l[|l| - 1];
      if before(last, x) {
        assert forall i :: 0 <= i < |l| ==> before(l[i], last);
        SortedSnoc(before, l, x);
      } else {
        assert Sorted(before, init);
        InsertSorted(before, x, init);
        var p := Insert(before, x, init);
        AllBefore(before, p, init, x, last);
        SortedSnoc(before, p, last);
      }
    }
  }

  /** The output is in order. */
  lemma {:induction false} SortSorted<T(!new)>(before: (T, T) -> bool, s: seq<T>)
    requires TotalPreorder(before)
    ensures Sorted(before, Sort(before, s))
    decreases |s|
  {
    if |s| > 0 {
      SortSorted(before, s[..|s| - 1]);
      InsertSorted(before, s[|s| - 1], Sort(before, s[..|s| - 1]));
    }
  }

  /** Two singletons of which at most one survives filtering commute. */
  lemma FilterSwap<T(!new)>(a: seq<T>, x: T, y: T, keep: T -> bool)
    requires !(keep(x) && keep(y))
    ensures a + Filter([x], keep) + Filter([y], keep) == a + Filter([y], keep) + Filter([x], keep)
  {
    FilterSingleton(x, keep);
    FilterSingleton(y, keep);
  }

  lemma {:induction false} FilterInsert<T(!new)>(before: (T, T) -> bool, keep: T -> bool, x: T, l: seq<T>)
    requires TieClass(before, keep)
    ensures Filter(Insert(before, x, l), keep) == Filter(l, keep) + Filter([x], keep)
    decreases |l|
  {
    if |l| == 0 {
      FilterSnoc(l, x, keep);
      assert l + [x] == [x];
    } else {
      var init, last := l[..|l| - 1], l[|l| - 1];
      assert l == init + [last];
      if before(last, x) {
        FilterSnoc(l, x, keep);
      } else {
        var p := Insert(before, x, init);
        FilterSnoc(p, last, keep);
        FilterInsert(before, keep, x, init);
        FilterSwap(Filter(init, keep), x, last, keep);
        FilterSnoc(init, last, keep);
      }
    }
  }

  /** Stability: the elements of one tie class keep their input order. */
  lemma {:induction false} SortStable<T(!new)>(before: (T, T) -> bool, keep: T -> bool, s: seq<T>)
    requires TieClass(before, keep)
    ensures Filter(Sort(before, s), keep) == Filter(s, keep)
    decreases |s|
  {
    if |s| > 0 {
      var init, last := s[..|s| - 1], s[|s| - 1];
      assert s == init + [last];
      FilterInsert(before, keep, last, Sort(before, init));
      SortStable(before, keep, init);
      FilterSnoc(init, last, keep);
    }
  }

  /** Input that is already in order comes back unchanged. */
  lemma {:induction false} SortOfSorted<T>(before: (T, T) -> bool, s: seq<T>)
    requires Sorted(before, s)
    ensures Sort(before, s) == s
    decreases |s|
  {
    if |s| > 0 {
      var init, last := s[..|s| - 1], s[|s| - 1];
      assert Sorted(before, init);
      SortOfSorted(before, init);
      if |init| > 0 {
        assert before(init[|init| - 1], last);
      }
      assert s == init + [last];
    }
  }
}

=== FILE: query.dfy ===
/** The first half of `handleSearch`: the sidebar settings become the
    parameters of the phase-1 search request (result limit, region, relevance
    language and the publish-date window). */
module Query {
  import opened Wrappers
  import opened Text

  /** The select value meaning "no constraint". */
  const ALL: string := "전체"
  /** The select value that switches to the free-text input next to it. */
  const CUSTOM: string := "직접 기입"
  /** The result limit used when none can be read from the settings. */
  const DEFAULT_LIMIT: int := 50

  /** The sidebar state the search reads: each select value with its
      free-text companion, and the strict-region checkbox. */
  datatype Settings = Settings(
    limit: string, customLimit: string,
    period: string, customPeriod: string,
    country: string, customCountry: string,
    strict: bool)

  /** The sidebar's initial state (and the state its reset button restores). */
  const InitialSettings := Settings("100", "", "7일", "", "KR", "", false)

  // ----- parseInt -----

  /** The outcome of JavaScript's `parseInt`. */
  datatype ParsedInt = NaN | Int(value: int)

  /** `parseInt(s)` with no radix argument: leading white space is skipped,
      then one sign is read, then the digits. */
  function ParseInt(s: string): (r: ParsedInt)
    ensures (forall i :: 0 <= i < |s| ==> !IsDigit(s[i])) ==> r == NaN
  {
    var i := LeadingSpace(s, 0);
    ParseSigned(s[i..])
  }

  /** An optional `-` or `+`, then an unsigned number. */
  function ParseSigned(t: string): (r: ParsedInt)
    ensures (forall i :: 0 <= i < |t| ==> !IsDigit(t[i])) ==> r == NaN
  {
    if |t| > 0 && t[0] == '-' then
      match ParseUnsigned(t[1..])
      case NaN => NaN
      case Int(v) => Int(-v)
    else if |t| > 0 && t[0] == '+' then ParseUnsigned(t[1..])
    else ParseUnsigned(t)
  }

  /** A `0x`/`0X` prefix selects base 16, otherwise base 10; the value is the
      longest run of digits of that base, and no digits at all gives NaN. */
  function ParseUnsigned(u: string): (r: ParsedInt)
    ensures (forall i :: 0 <= i < |u| ==> !IsDigit(u[i])) ==> r == NaN
    ensures r.Int? ==> r.value >= 0
  {
    var hex := 1 < |u| && u[0] == '0' && (u[1] == 'x' || u[1] == 'X');
    var radix: Radix := if hex then 16 else 10;
    var k := if hex then 2 else 0;
    var n := DigitRun(u, k, radix);
    if n == 0 then NaN
    else
      assert hex || IsDigit(u[0]);
      DigitRunDigits(u, k, radix);
      Int(DigitsValue(u[k..k + n], radix))
  }

  /** An unsigned decimal rendering is read back up to the first character
      that cannot continue it. */
  lemma ParseUnsignedDecimal(n: nat, rest: string)
    requires |rest| == 0 || (!IsDigit(rest[0]) && rest[0] != 'x' && rest[0] != 'X')
    ensures ParseUnsigned(NatToDigits(n) + rest) == Int(n)
  {
    var ds := NatToDigits(n);
    var u := ds + rest;
    assert u[0] == ds[0];
    assert |ds| == 1 ==> (|u| == 1 || u[1] == rest[0]);
    assert u[..|ds|] == ds;
    assert |rest| > 0 ==> u[|ds|] == rest[0];
    DigitRunExact(u, 0, |ds|, 10);
  }

  /** A sign in front of an unsigned decimal rendering applies to its value. */
  lemma ParseSignedDecimal(sign: string, n: nat, rest: string)
    requires sign == "" || sign == "+" || sign == "-"
    requires |rest| == 0 || (!IsDigit(rest[0]) && rest[0] != 'x' && rest[0] != 'X')
    ensures ParseSigned(sign + (NatToDigits(n) + rest)) == Int(if sign == "-" then -(n as int) else n)
  {
    var u := NatToDigits(n) + rest;
    ParseUnsignedDecimal(n, rest);
    if sign == "" {
      assert u[0] == NatToDigits(n)[0];
      assert sign + u == u;
    } else {
      assert (sign + u)[0] == sign[0];
      assert (sign + u)[1..] == u;
    }
  }

  /** Leading white space is skipped up to the first other character. */
  lemma ParseIntSkipsSpace(ws: string, t: string)
    requires forall i :: 0 <= i < |ws| ==> IsJsSpace(ws[i])
    requires |t| > 0 && !IsJsSpace(t[0])
    ensures ParseInt(ws + t) == ParseSigned(t)
  {
    var s := ws + t;
    assert s[|ws|] == t[0];
    assert s[|ws|..] == t;
    LeadingSpaceExact(s, |ws|);
  }

  /** `parseInt` reads back a decimal rendering, after optional white space and
      sign, up to the first character that cannot continue the number. */
  lemma ParseIntDecimal(ws: string, sign: string, n: nat, rest: string)
    requires forall i :: 0 <= i < |ws| ==> IsJsSpace(ws[i])
    requires sign == "" || sign == "+" || sign == "-"
    requires |rest| == 0 || (!IsDigit(rest[0]) && rest[0] != 'x' && rest[0] != 'X')
    ensures ParseInt(ws + sign + NatToDigits(n) + rest) == Int(if sign == "-" then -(n as int) else n)
  {
    var ds := NatToDigits(n);
    var t := sign + (ds + rest);
    assert ws + sign + ds + rest == ws + t;
    assert !IsJsSpace(t[0]) by {
      if sign == "" { assert t[0] == ds[0]; }
    }
    ParseIntSkipsSpace(ws, t);
    ParseSignedDecimal(sign, n, rest);
  }

  /** Leading white space that stops at a non-space is counted exactly. */
  lemma {:induction false} LeadingSpaceExact(s: string, k: nat)
    requires k <= |s|
    requires forall i :: 0 <= i < k ==> IsJsSpace(s[i])
    requires k == |s| || !IsJsSpace(s[k])
    ensures LeadingSpace(s, 0) == k
  {
    LeadingSpaceFrom(s, 0, k);
  }

  lemma {:induction false} LeadingSpaceFrom(s: string, p: nat, k: nat)
    requires p <= k <= |s|
    requires forall i :: p <= i < k ==> IsJsSpace(s[i])
    requires k == |s| || !IsJsSpace(s[k])
    ensures LeadingSpace(s, p) == k - p
    decreases k - p
  {
    if p < k {
      LeadingSpaceFrom(s, p + 1, k);
    }
  }

  // ----- result limit -----

  /** The limit text after the two substitutions of the source: an empty custom
      limit becomes "50", and "전체" becomes "50". */
  function FinalLimit(st: Settings): (r: string)
    ensures r != ALL
    ensures st.limit == ALL || (st.limit == CUSTOM && (st.customLimit == "" || st.customLimit == ALL)) ==> r == "50"
    ensures st.limit == CUSTOM && st.customLimit != "" && st.customLimit != ALL ==> r == st.customLimit
    ensures st.limit != CUSTOM && st.limit != ALL ==> r == st.limit
  {
    var l := if st.limit == CUSTOM then (if st.customLimit == "" then "50" else st.customLimit) else st.limit;
    if l == ALL then "50" else l
  }

  /** `parseInt(finalLimit) || 50`: the leading integer of the limit text,
      with 0 and NaN replaced by the default; nothing clamps the value. */
  function MaxResults(st: Settings): (r: int)
    ensures r != 0
    ensures ParseInt(FinalLimit(st)).Int? && ParseInt(FinalLimit(st)).value != 0 ==> r == ParseInt(FinalLimit(st)).value
    ensures ParseInt(FinalLimit(st)) == NaN || ParseInt(FinalLimit(st)) == Int(0) ==> r == DEFAULT_LIMIT
  {
    match ParseInt(FinalLimit(st))
    case NaN => DEFAULT_LIMIT
    case Int(v) => if v == 0 then DEFAULT_LIMIT else v
  }

  /** "전체", or the custom option with an empty or "전체" custom text, gives 50. */
  lemma MaxResultsDefaults(st: Settings)
    requires st.limit == ALL || (st.limit == CUSTOM && (st.customLimit == "" || st.customLimit == ALL))
    ensures MaxResults(st) == DEFAULT_LIMIT
  {
    assert FinalLimit(st) == "50";
    assert "50" == "" + "" + NatToDigits(50) + "" by {
      assert NatToDigits(50) == NatToDigits(5) + ['0'];
    }
    ParseIntDecimal("", "", 50, "");
  }

  /** A positive number in the limit select or in the custom text is used as
      it is, without clamping. */
  lemma MaxResultsUsesNumber(st: Settings, n: nat)
    requires n > 0
    requires st.limit == NatToDigits(n) || (st.limit == CUSTOM && st.customLimit == NatToDigits(n))
    ensures MaxResults(st) == n
  {
    assert NatToDigits(n) != ALL && NatToDigits(n) != CUSTOM && NatToDigits(n) != "" by {
      assert IsDigit(NatToDigits(n)[0]);
    }
    assert FinalLimit(st) == "" + "" + NatToDigits(n) + "";
    ParseIntDecimal("", "", n, "");
  }

  /** Custom text that holds no digit at all falls back to 50. */
  lemma MaxResultsWithoutDigits(st: Settings)
    requires st.limit == CUSTOM && st.customLimit != ""
    requires forall i :: 0 <= i < |st.customLimit| ==> !IsDigit(st.customLimit[i])
    ensures MaxResults(st) == DEFAULT_LIMIT
  {
    if st.customLimit == ALL {
      MaxResultsDefaults(st);
    }
  }

  // ----- region and relevance language -----

  /** The region text: a custom region is upper-cased. */
  function FinalCountry(st: Settings): (r: string)
    ensures st.country != CUSTOM ==> r == st.country
    ensures st.country == CUSTOM ==> |r| == |st.customCountry|
    ensures st.country == CUSTOM ==> forall i :: 0 <= i < |r| ==> !('a' <= r[i] <= 'z') && LowerChar(r[i]) == LowerChar(st.customCountry[i])
  {
    if st.country == CUSTOM then AsciiUpper(st.customCountry) else st.country
  }

  /** `regionCode`: omitted for "전체" and for an empty text. */
  function Region(st: Settings): (r: Option<string>)
    ensures r.None? <==> FinalCountry(st) == "" || FinalCountry(st) == ALL
    ensures r.Some? ==> r.value == FinalCountry(st)
  {
    var c := FinalCountry(st);
    if c != "" && c != ALL then Some(c) else None
  }

  /** A custom region is sent upper-cased, and it is sent unless it is empty
      or "전체". */
  lemma CustomRegionUpperCased(st: Settings)
    requires st.country == CUSTOM && st.customCountry != "" && st.customCountry != ALL
    ensures Region(st).Some?
    ensures |Region(st).value| == |st.customCountry|
    ensures forall i :: 0 <= i < |st.customCountry| ==> !('a' <= Region(st).value[i] <= 'z')
  {
  }

  /** The fixed region-to-language table used in strict mode. */
  function LanguageFor(region: string): (r: Option<string>)
    ensures r.Some? <==> region in {"KR", "US", "JP", "UK", "FR"}
    ensures r.Some? ==> r.value in {"ko", "en", "ja", "fr"}
    ensures r == Some("ko") <==> region == "KR"
    ensures r == Some("en") <==> region == "US" || region == "UK"
    ensures r == Some("ja") <==> region == "JP"
    ensures r == Some("fr") <==> region == "FR"
  {
    if region == "KR" then Some("ko")
    else if region == "US" then Some("en")
    else if region == "JP" then Some("ja")
    else if region == "UK" then Some("en")
    else if region == "FR" then Some("fr")
    else None
  }

  /** `relevanceLanguage`: sent exactly when strict mode is on and the region
      sent is one of KR, US, JP, UK, FR. */
  function RelevanceLanguage(st: Settings): (r: Option<string>)
    ensures r.Some? <==> st.strict && Region(st).Some? && Region(st).value in {"KR", "US", "JP", "UK", "FR"}
    ensures r.Some? ==> r == LanguageFor(Region(st).value)
  {
    match Region(st)
    case None => None
    case Some(c) => if st.strict then LanguageFor(c) else None
  }

  // ----- publish-date window -----

  /** The period text: the free text for the custom option, the select value
      otherwise. */
  function FinalPeriod(st: Settings): (r: string)
    ensures st.period == CUSTOM ==> r == st.customPeriod
    ensures st.period != CUSTOM ==> r == st.period
  {
    if st.period == CUSTOM then st.customPeriod else st.period
  }

  /** The index of the first digit at or after `from`. */
  function FirstDigit(s: string, from: nat): (r: Option<nat>)
    requires from <= |s|
    ensures r.Some? ==> from <= r.value < |s| && IsDigit(s[r.value])
    ensures r.Some? ==> forall i :: from <= i < r.value ==> !IsDigit(s[i])
    ensures r.None? ==> forall i :: from <= i < |s| ==> !IsDigit(s[i])
    decreases |s| - from
  {
    if from == |s| then None
    else if IsDigit(s[from]) then Some(from)
    else FirstDigit(s, from + 1)
  }

  /** The day count of the period: the first run of digits of the period text
      (`/(\d+)/`), read in base 10. "전체", an empty text and a text without
      digits give no window. */
  function PeriodDays(st: Settings): (r: Option<nat>)
    ensures r.None? <==> FinalPeriod(st) == "" || FinalPeriod(st) == ALL
                         || forall i :: 0 <= i < |FinalPeriod(st)| ==> !IsDigit(FinalPeriod(st)[i])
  {
    var p := FinalPeriod(st);
    if p == "" || p == ALL then None
    else
      match FirstDigit(p, 0)
      case None => None
      case Some(i) =>
        var n := DigitRun(p, i, 10);
        DigitRunDigits(p, i, 10);
        Some(DigitsValue(p[i..i + n], 10))
  }

  /** The period text `prefix + digits + suffix`, with no digit in the prefix
      and the suffix not continuing the number, gives that many days. */
  lemma PeriodDaysOf(st: Settings, prefix: string, n: nat, suffix: string)
    requires FinalPeriod(st) == prefix + NatToDigits(n) + suffix
    requires forall i :: 0 <= i < |prefix| ==> !IsDigit(prefix[i])
    requires |suffix| == 0 || !IsDigit(suffix[0])
    ensures PeriodDays(st) == Some(n)
  {
    var p := FinalPeriod(st);
    var ds := NatToDigits(n);
    var k := |prefix|;
    assert p[k] == ds[0];
    assert forall i :: 0 <= i < k ==> p[i] == prefix[i];
    FirstDigitExact(p, 0, k);
    assert p[k..k + |ds|] == ds;
    assert |suffix| > 0 ==> p[k + |ds|] == suffix[0];
    DigitRunExact(p, k, |ds|, 10);
  }

  lemma {:induction false} FirstDigitExact(s: string, from: nat, k: nat)
    requires from <= k < |s| && IsDigit(s[k])
    requires forall i :: from <= i < k ==> !IsDigit(s[i])
    ensures FirstDigit(s, from) == Some(k)
    decreases k - from
  {
    if from < k {
      FirstDigitExact(s, from + 1, k);
    }
  }

  /** The preset periods give 7, 30 and 90 days; "전체" gives none. */
  lemma PresetPeriods(st: Settings)
    ensures st.period == "7일" ==> PeriodDays(st) == Some(7)
    ensures st.period == "30일" ==> PeriodDays(st) == Some(30)
    ensures st.period == "90일" ==> PeriodDays(st) == Some(90)
    ensures st.period == ALL ==> PeriodDays(st).None?
  {
    if st.period == "7일" {
      assert FinalPeriod(st) == "" + NatToDigits(7) + "일";
      PeriodDaysOf(st, "", 7, "일");
    } else if st.period == "30일" {
      assert NatToDigits(30) == NatToDigits(3) + ['0'];
      assert FinalPeriod(st) == "" + NatToDigits(30) + "일";
      PeriodDaysOf(st, "", 30, "일");
    } else if st.period == "90일" {
      assert NatToDigits(90) == NatToDigits(9) + ['0'];
      assert FinalPeriod(st) == "" + NatToDigits(90) + "일";
      PeriodDaysOf(st, "", 90, "일");
    }
  }

  // ----- the publishedAfter date -----

  const MS_PER_DAY: int := 86400000

  /** The largest magnitude of a JavaScript time value: 8.64e15 ms, that is
      100 000 000 days either side of 1 January 1970 (the "Time Values and
      Time Range" section of ECMA-262). */
  const MAX_TIME: int := 8640000000000000

  predicate ValidTime(t: int) {
    -MAX_TIME <= t <= MAX_TIME
  }

  /** `pastDate` after `pastDate.setDate(pastDate.getDate() - days)` on a date
      created at time value `clock`: the time value `days` days earlier, or
      None when that leaves the range of time values. `TimeClip` then makes
      the date invalid, and `toISOString` throws a RangeError. */
  function WindowStart(clock: int, days: nat): (r: Option<int>)
    ensures r.Some? ==> ValidTime(r.value) && r.value + days * MS_PER_DAY == clock
    ensures r.None? ==> !ValidTime(clock - days * MS_PER_DAY)
  {
    var t := clock - days * MS_PER_DAY;
    if ValidTime(t) then Some(t) else None
  }

  /** The window computation throws: the period gives a day count, and going
      back that many days from `clock` leaves the range of dates. */
  predicate WindowThrows(st: Settings, clock: int) {
    PeriodDays(st).Some? && WindowStart(clock, PeriodDays(st).value).None?
  }

  /** From any date between 1970 and the end of the range, going back up to
      100 000 000 days stays a valid date. */
  lemma WindowStartInRange(clock: int, days: nat)
    requires 0 <= clock <= MAX_TIME && days <= 100000000
    ensures WindowStart(clock, days).Some?
  {
  }

  /** From any date since 1970, going back 200 000 000 days or more leaves the
      range of dates, so the search throws before anything is sent. */
  lemma WindowStartOutOfRange(clock: int, days: nat)
    requires 0 <= clock < MAX_TIME && days >= 200000000
    ensures WindowStart(clock, days).None?
  {
  }

  /** A custom period of "200000000" reads as 200 000 000 days. */
  lemma CustomPeriodDays()
    ensures PeriodDays(Settings("100", "", CUSTOM, "200000000", "KR", "", false)) == Some(200000000)
  {
    var st := Settings("100", "", CUSTOM, "200000000", "KR", "", false);
    assert NatToDigits(20) == NatToDigits(2) + ['0'];
    assert NatToDigits(200) == NatToDigits(20) + ['0'];
    assert NatToDigits(2000) == NatToDigits(200) + ['0'];
    assert NatToDigits(20000) == NatToDigits(2000) + ['0'];
    assert NatToDigits(200000) == NatToDigits(20000) + ['0'];
    assert NatToDigits(2000000) == NatToDigits(200000) + ['0'];
    assert NatToDigits(20000000) == NatToDigits(2000000) + ['0'];
    assert NatToDigits(200000000) == NatToDigits(20000000) + ['0'];
    assert FinalPeriod(st) == "" + NatToDigits(200000000) + "";
    PeriodDaysOf(st, "", 200000000, "");
  }

  // ----- the phase-1 request -----

  /** The parameters of the phase-1 search request that depend on the input;
      `part=snippet`, `type=video` and the key are fixed. */
  datatype SearchRequest = SearchRequest(
    query: string,
    maxResults: int,
    region: Option<string>,
    relevanceLanguage: Option<string>,
    periodDays: Option<nat>)

  /** The phase-1 request for a query under the given settings; a relevance
      language is only ever sent together with a region. */
  function BuildRequest(st: Settings, query: string): (r: SearchRequest)
    ensures r.query == query && r.maxResults != 0
    ensures r.relevanceLanguage.Some? ==> r.region.Some? && st.strict
    ensures r.region.None? <==> FinalCountry(st) == "" || FinalCountry(st) == ALL
    ensures r.maxResults == MaxResults(st) && r.region == Region(st)
    ensures r.relevanceLanguage == RelevanceLanguage(st) && r.periodDays == PeriodDays(st)
  {
    SearchRequest(query, MaxResults(st), Region(st), RelevanceLanguage(st), PeriodDays(st))
  }

  /** The initial settings ask for 100 results from KR over the last 7 days,
      without a relevance language. */
  lemma InitialRequest(query: string)
    ensures BuildRequest(InitialSettings, query) == SearchRequest(query, 100, Some("KR"), None, Some(7))
  {
    MaxResultsUsesNumber(InitialSettings, 100) by {
      assert NatToDigits(100) == NatToDigits(10) + ['0'];
      assert NatToDigits(10) == NatToDigits(1) + ['0'];
    }
    PresetPeriods(InitialSettings);
  }
}

=== FILE: records.dfy ===
/** The records a search produces: phase-1 candidates (search hits with their
    snippet), phase-2 detail records (statistics and content details), and the
    video rows the table shows, which join the two by video id. */
module Records {
  import opened Wrappers
  import Engagement

  /** The snippet fields the model reads. `publishedAt` stands for the
      millisecond timestamp `new Date(publishedAt).getTime()` yields. */
  datatype Snippet = Snippet(title: string, channelTitle: string, publishedAt: int)

  /** A phase-1 search hit: `item.id.videoId` and `item.snippet`. */
  datatype Candidate = Candidate(videoId: string, snippet: Snippet)

  /** A phase-2 record: its id, the optional statistics counters and the
      optional `contentDetails.duration`. A missing `statistics` object is a
      record whose three counters are all absent. */
  datatype Detail = Detail(
    id: string,
    viewCount: Option<nat>,
    likeCount: Option<nat>,
    commentCount: Option<nat>,
    duration: Option<string>)

  /** A table row: the candidate spread with its detail record (or with `{}`
      when none was found) and `exactVideoId` set to the candidate's id. */
  datatype Video = Video(item: Candidate, detail: Option<Detail>, exactVideoId: string)

  /** The first detail record whose id equals `id` (`Array.prototype.find`). */
  function FindDetail(details: seq<Detail>, id: string): (r: Option<Detail>)
    ensures r.None? <==> forall i :: 0 <= i < |details| ==> details[i].id != id
    ensures r.Some? ==> exists i :: 0 <= i < |details| && details[i] == r.value && r.value.id == id
                                    && forall j :: 0 <= j < i ==> details[j].id != id
    decreases |details|
  {
    if |details| == 0 then None
    else if details[0].id == id then
      Some(details[0])
    else
      var r := FindDetail(details[1..], id);
      if r.Some? then
        var i :| 0 <= i < |details[1..]| && details[1..][i] == r.value && r.value.id == id
                 && forall j :: 0 <= j < i ==> details[1..][j].id != id;
        assert details[i + 1] == r.value;
        assert forall j :: 0 <= j < i + 1 ==> details[j].id != id by {
          forall j | 0 <= j < i + 1 ensures details[j].id != id {
            if j > 0 { assert details[j] == details[1..][j - 1]; }
          }
        }
        r
      else
        assert forall i :: 0 <= i < |details| ==> details[i].id != id by {
          forall i | 0 <= i < |details| ensures details[i].id != id {
            if i > 0 { assert details[i] == details[1..][i - 1]; }
          }
        }
        r
  }

  /** The row for one candidate. */
  function Join(item: Candidate, details: seq<Detail>): Video {
    Video(item, FindDetail(details, item.videoId), item.videoId)
  }

  /** The phase-2 join: one row per candidate, in candidate order. */
  function Merge(items: seq<Candidate>, details: seq<Detail>): (r: seq<Video>)
    ensures |r| == |items|
    ensures forall i :: 0 <= i < |r| ==> r[i].item == items[i] && r[i].exactVideoId == items[i].videoId
    ensures forall i :: 0 <= i < |r| && r[i].detail.Some? ==>
              r[i].detail.value in details && r[i].detail.value.id == items[i].videoId
  {
    seq(|items|, i requires 0 <= i < |items| => Join(items[i], details))
  }

  /** A detail record whose id matches no candidate appears in no row. */
  lemma MergeDropsOrphans(items: seq<Candidate>, details: seq<Detail>, d: Detail)
    requires forall i :: 0 <= i < |items| ==> items[i].videoId != d.id
    ensures forall i :: 0 <= i < |items| ==> Merge(items, details)[i].detail != Some(d)
  {
  }

  /** When several detail records share an id, every row with that id gets the
      earliest one, and a candidate with no record gets none. */
  lemma MergeTakesFirstDetail(items: seq<Candidate>, details: seq<Detail>, i: nat, k: nat)
    requires i < |items| && k < |details|
    requires details[k].id == items[i].videoId
    requires forall j :: 0 <= j < k ==> details[j].id != items[i].videoId
    ensures Merge(items, details)[i].detail == Some(details[k])
  {
    var r := FindDetail(details, items[i].videoId);
    var m :| 0 <= m < |details| && details[m] == r.value && r.value.id == items[i].videoId
             && forall j :: 0 <= j < m ==> details[j].id != items[i].videoId;
  }

  // ----- the counters as the table and the comparator read them -----

  /** `Number(v.statistics?.viewCount || 0)`. */
  function Views(v: Video): (n: nat)
    ensures v.detail.None? || v.detail.value.viewCount.None? ==> n == 0
    ensures v.detail.Some? && v.detail.value.viewCount.Some? ==> n == v.detail.value.viewCount.value
  {
    if v.detail.Some? then v.detail.value.viewCount.GetOr(0) else 0
  }

  /** `Number(v.statistics?.likeCount || 0)`. */
  function Likes(v: Video): (n: nat)
    ensures v.detail.None? || v.detail.value.likeCount.None? ==> n == 0
    ensures v.detail.Some? && v.detail.value.likeCount.Some? ==> n == v.detail.value.likeCount.value
  {
    if v.detail.Some? then v.detail.value.likeCount.GetOr(0) else 0
  }

  /** `Number(v.statistics?.commentCount || 0)`. */
  function Comments(v: Video): (n: nat)
    ensures v.detail.None? || v.detail.value.commentCount.None? ==> n == 0
    ensures v.detail.Some? && v.detail.value.commentCount.Some? ==> n == v.detail.value.commentCount.value
  {
    if v.detail.Some? then v.detail.value.commentCount.GetOr(0) else 0
  }

  /** `v.contentDetails?.duration`. */
  function DurationOf(v: Video): Option<string> {
    if v.detail.Some? then v.detail.value.duration else None
  }

  /** The denominator of the like ratio, `Number(v.statistics?.viewCount || 1)`:
      1 when the counter is absent. A present count of 0 is also read as 1
      here; the source divides by zero in that case (see the README). */
  function RatioViews(v: Video): (n: nat)
    ensures n >= 1
    ensures Views(v) > 0 ==> n == Views(v)
  {
    if Views(v) == 0 then 1 else Views(v)
  }

  /** The CII column: `getCIIBadge(likes, views)` on the row's counters, each
      defaulting to 0, so a row without statistics is Bad. With views the tier
      follows the like percentage (4% and 2% thresholds); without views any
      like makes the ratio +Infinity, so the row is Great. */
  function BadgeOf(v: Video): (t: Engagement.Tier)
    ensures Likes(v) == 0 ==> t == Engagement.Bad
    ensures Views(v) > 0 ==> (t == Engagement.Great <==> 100 * Likes(v) >= 4 * Views(v))
    ensures Views(v) > 0 ==> (t == Engagement.Good <==> 2 * Views(v) <= 100 * Likes(v) < 4 * Views(v))
    ensures Views(v) > 0 ==> (t == Engagement.Bad <==> 100 * Likes(v) < 2 * Views(v))
    ensures Views(v) == 0 ==> (t == Engagement.Great <==> Likes(v) > 0) && (t == Engagement.Bad <==> Likes(v) == 0)
  {
    Engagement.Badge(Likes(v), Views(v))
  }

  lemma BadgeWithoutDetail(v: Video)
    requires v.detail.None?
    ensures BadgeOf(v) == Engagement.Bad
  {
  }
}

=== FILE: search.dfy ===
/** `handleSearch` as one state transition: the two guards, the phase-1
    search, the phase-2 detail fetch and the updates each outcome makes to the
    page state. The two responses are parameters; an `await` that throws is a
    response of its own. */
module Search {
  import opened Wrappers
  import opened Text
  import opened Query
  import opened Records
  import opened Sorting
  import opened History

  datatype Tab = AnalysisTab | HistoryTab | SettingsTab

  /** The part of the page state a search reads or writes. */
  datatype AppState = AppState(
    tab: Tab,
    searchQuery: string,
    videos: seq<Video>,
    sort: SortConfig,
    history: seq<Entry>)

  /** The phase-1 response: an API error object, a list of hits (an absent
      `items` is the empty list), or a failure that throws. */
  datatype SearchResponse = SearchError(message: string) | SearchItems(items: seq<Candidate>) | SearchThrew

  /** The phase-2 response: the detail records, or a failure that throws
      (including a body without `items`, on which `find` throws). */
  datatype DetailsResponse = DetailItems(details: seq<Detail>) | DetailsThrew

  datatype Outcome =
    | MissingApiKey
    | BlankQuery
    | ApiError(message: string)
    | NoResults
    | Found(count: nat)
    | Failed

  /** The new state, the outcome, and what the search sends: the phase-1
      parameters, the `publishedAfter` time value of the phase-1 request when
      there is a window, and the ids asked for in phase 2. */
  datatype Step = Step(
    state: AppState,
    outcome: Outcome,
    request: Option<SearchRequest>,
    windowStart: Option<int>,
    detailIds: Option<seq<string>>)

  /** A search passes both guards: an API key is set and the query is not
      blank after trimming. */
  predicate Accepted(apiKey: string, query: string): (ok: bool)
    ensures ok <==> apiKey != "" && LeadingSpace(query, 0) < |query|
  {
    apiKey != "" && !IsBlank(query)
  }

  /** The ids of the phase-1 hits, in order (the `id` list of the phase-2 request). */
  function CandidateIds(items: seq<Candidate>): (ids: seq<string>)
    ensures |ids| == |items|
    ensures forall i :: 0 <= i < |items| ==> ids[i] == items[i].videoId
  {
    seq(|items|, i requires 0 <= i < |items| => items[i].videoId)
  }

  /** `handleSearch(query)` with the given settings and responses. `clock`
      stands for the time value of `new Date()` when the date window is
      computed, `now` and `date` for `Date.now()` and the localised date text
      when the term is recorded. */
  function Run(s: AppState, apiKey: string, query: string, st: Settings, clock: int,
               p1: SearchResponse, p2: DetailsResponse, now: int, date: string): (r: Step)
    // guards
    ensures apiKey == "" ==> r == Step(s.(tab := SettingsTab), MissingApiKey, None, None, None)
    ensures apiKey != "" && IsBlank(query) ==> r == Step(s, BlankQuery, None, None, None)
    // every accepted search
    ensures Accepted(apiKey, query) ==>
              && r.state.tab == s.tab
              && r.state.searchQuery == query
              && r.state.sort == Unsorted
    // a date window out of range throws before the request is sent
    ensures Accepted(apiKey, query) && WindowThrows(st, clock) ==>
              r == Step(s.(searchQuery := query, sort := Unsorted), Failed, None, None, None)
    ensures Accepted(apiKey, query) && !WindowThrows(st, clock) ==>
              && r.request == Some(BuildRequest(st, query))
              && (r.windowStart.Some? <==> PeriodDays(st).Some?)
              && (r.windowStart.Some? ==> r.windowStart.value + PeriodDays(st).value * MS_PER_DAY == clock)
    // the videos are replaced only on a phase-1 answer with or without hits
    ensures Accepted(apiKey, query) && !WindowThrows(st, clock) && p1.SearchItems? && |p1.items| == 0 ==>
              r.state.videos == [] && r.outcome == NoResults
    ensures Accepted(apiKey, query) && !WindowThrows(st, clock) && p1.SearchItems? && |p1.items| > 0 && p2.DetailItems? ==>
              r.state.videos == Merge(p1.items, p2.details) && r.outcome == Found(|p1.items|)
    ensures !r.outcome.Found? && !r.outcome.NoResults? ==> r.state.videos == s.videos
    // the history changes only on success
    ensures r.outcome.Found? ==> r.state.history == Record(s.history, Entry(now, query, date))
    ensures !r.outcome.Found? ==> r.state.history == s.history
    // phase 2 is asked exactly for the phase-1 hits
    ensures r.detailIds.Some? <==> Accepted(apiKey, query) && !WindowThrows(st, clock) && p1.SearchItems? && |p1.items| > 0
    ensures r.detailIds.Some? ==> r.detailIds.value == CandidateIds(p1.items)
  {
    if apiKey == "" then Step(s.(tab := SettingsTab), MissingApiKey, None, None, None)
    else if IsBlank(query) then Step(s, BlankQuery, None, None, None)
    else
      var started := s.(searchQuery := query, sort := Unsorted);
      if WindowThrows(st, clock) then Step(started, Failed, None, None, None)
      else
        var request := Some(BuildRequest(st, query));
        var window := if PeriodDays(st).Some? then WindowStart(clock, PeriodDays(st).value) else None;
        match p1
        case SearchError(message) => Step(started, ApiError(message), request, window, None)
        case SearchThrew => Step(started, Failed, request, window, None)
        case SearchItems(items) =>
          if |items| == 0 then Step(started.(videos := []), NoResults, request, window, None)
          else
            var ids := Some(CandidateIds(items));
            match p2
            case DetailsThrew => Step(started, Failed, request, window, ids)
            case DetailItems(details) =>
              var videos := Merge(items, details);
              var history := Record(s.history, Entry(now, query, date));
              Step(started.(videos := videos, history := history), Found(|items|), request, window, ids)
  }

  /** A search keeps the history within 50 entries with no term twice. */
  lemma RunKeepsHistoryWellFormed(s: AppState, apiKey: string, query: string, st: Settings, clock: int,
                                  p1: SearchResponse, p2: DetailsResponse, now: int, date: string)
    requires WellFormed(s.history)
    ensures WellFormed(Run(s, apiKey, query, st, clock, p1, p2, now, date).state.history)
  {
    RecordWellFormed(s.history, Entry(now, query, date));
  }

  /** After a successful search the table shows one row per hit, in the order
      of the hits, each with its video id: the sort is reset, so the display
      order is the order of the response. */
  lemma FoundShowsHitsInOrder(s: AppState, apiKey: string, query: string, st: Settings, clock: int,
                              items: seq<Candidate>, details: seq<Detail>, now: int, date: string)
    requires Accepted(apiKey, query) && !WindowThrows(st, clock) && |items| > 0
    ensures var r := Run(s, apiKey, query, st, clock, SearchItems(items), DetailItems(details), now, date);
            && r.outcome == Found(|items|)
            && var shown := SortedVideos(r.state.sort, r.state.videos);
               && |shown| == |items|
               && forall i :: 0 <= i < |items| ==> shown[i].item == items[i] && shown[i].exactVideoId == items[i].videoId
  {
  }

  /** The searched term heads the history after a successful search, and no
      other entry carries it. */
  lemma FoundRecordsTerm(s: AppState, apiKey: string, query: string, st: Settings, clock: int,
                         items: seq<Candidate>, details: seq<Detail>, now: int, date: string)
    requires Accepted(apiKey, query) && !WindowThrows(st, clock) && |items| > 0
    ensures var h := Run(s, apiKey, query, st, clock, SearchItems(items), DetailItems(details), now, date).state.history;
            && |h| > 0 && h[0] == Entry(now, query, date)
            && forall i :: 1 <= i < |h| ==> h[i].term != query
  {
  }

  /** A search that fails after the guards (a date window out of range, an
      API error or a thrown failure) keeps the rows and the history, but still
      resets the sort and shows the new query. */
  lemma FailureKeepsResults(s: AppState, apiKey: string, query: string, st: Settings, clock: int,
                            p1: SearchResponse, p2: DetailsResponse, now: int, date: string)
    requires Accepted(apiKey, query)
    requires || WindowThrows(st, clock)
             || p1.SearchError? || p1.SearchThrew?
             || (p1.SearchItems? && |p1.items| > 0 && p2.DetailsThrew?)
    ensures var r := Run(s, apiKey, query, st, clock, p1, p2, now, date);
            && r.state == s.(searchQuery := query, sort := Unsorted)
            && !r.outcome.Found? && !r.outcome.NoResults?
  {
  }

  /** A period reaching back 200 000 000 days or more from any date since 1970
      throws before the request: nothing is sent, and rows and history stay. */
  lemma LongPeriodFails(s: AppState, apiKey: string, query: string, st: Settings, clock: int,
                        p1: SearchResponse, p2: DetailsResponse, now: int, date: string)
    requires Accepted(apiKey, query) && 0 <= clock < MAX_TIME
    requires PeriodDays(st).Some? && PeriodDays(st).value >= 200000000
    ensures var r := Run(s, apiKey, query, st, clock, p1, p2, now, date);
            && r.outcome == Failed && r.request.None? && r.detailIds.None?
            && r.state.videos == s.videos && r.state.history == s.history
  {
    WindowStartOutOfRange(clock, PeriodDays(st).value);
  }

  /** A period of at most 100 000 000 days never throws from a date since
      1970: the request is sent with its window start. */
  lemma ShortPeriodSends(s: AppState, apiKey: string, query: string, st: Settings, clock: int,
                         p1: SearchResponse, p2: DetailsResponse, now: int, date: string)
    requires Accepted(apiKey, query) && 0 <= clock <= MAX_TIME
    requires PeriodDays(st).None? || PeriodDays(st).value <= 100000000
    ensures var r := Run(s, apiKey, query, st, clock, p1, p2, now, date);
            && r.request == Some(BuildRequest(st, query))
            && (PeriodDays(st).Some? ==> r.windowStart == Some(clock - PeriodDays(st).value * MS_PER_DAY))
  {
    if PeriodDays(st).Some? {
      WindowStartInRange(clock, PeriodDays(st).value);
    }
  }

  /** The custom period "200000000" throws on any date since 1970. */
  lemma CustomLongPeriodFails(s: AppState, clock: int, p1: SearchResponse, p2: DetailsResponse, now: int, date: string)
    requires 0 <= clock < MAX_TIME
    ensures var r := Run(s, "key", "q", Settings("100", "", CUSTOM, "200000000", "KR", "", false), clock, p1, p2, now, date);
            r.outcome == Failed && r.request.None? && r.state.videos == s.videos
  {
    CustomPeriodDays();
    assert !IsBlank("q") by { assert !IsJsSpace("q"[0]); }
    LongPeriodFails(s, "key", "q", Settings("100", "", CUSTOM, "200000000", "KR", "", false), clock, p1, p2, now, date);
  }
}

=== FILE: seqs.dfy ===
/** Order-preserving filtering of sequences, the model of `Array.prototype.filter`. */
module Seqs {

  /** Keeps the elements satisfying `keep`, in their original order. */
  function Filter<T(!new)>(s: seq<T>, keep: T -> bool): (r: seq<T>)
    ensures |r| <= |s|
    ensures forall i :: 0 <= i < |r| ==> keep(r[i])
    decreases |s|
  {
    if |s| == 0 then []
    else Filter(s[..|s| - 1], keep) + (if keep(s[|s| - 1]) then [s[|s| - 1]] else [])
  }

  /** Filtering keeps every occurrence of a kept value and none of the others. */
  lemma {:induction false} FilterMultiset<T(!new)>(s: seq<T>, keep: T -> bool)
    ensures forall x :: multiset(Filter(s, keep))[x] == if keep(x) then multiset(s)[x] else 0
    decreases |s|
  {
    if |s| > 0 {
      var init, last := s[..|s| - 1], s[|s| - 1];
      FilterMultiset(init, keep);
      assert s == init + [last];
      assert multiset(s) == multiset(init) + multiset{last};
    }
  }

  lemma FilterSingleton<T(!new)>(x: T, keep: T -> bool)
    ensures Filter([x], keep) == if keep(x) then [x] else []
  {
    assert [x][..0] == [];
  }

  /** Filtering a sequence extended by one element. */
  lemma FilterSnoc<T(!new)>(s: seq<T>, x: T, keep: T -> bool)
    ensures Filter(s + [x], keep) == Filter(s, keep) + Filter([x], keep)
  {
    assert (s + [x])[..|s|] == s;
    FilterSingleton(x, keep);
  }

  /** Filtering distributes over concatenation: together with the multiset
      contract this pins down the order of the kept elements. */
  lemma {:induction false} FilterConcat<T(!new)>(a: seq<T>, b: seq<T>, keep: T -> bool)
    ensures Filter(a + b, keep) == Filter(a, keep) + Filter(b, keep)
    decreases |b|
  {
    if |b| == 0 {
      assert a + b == a;
    } else {
      var b' := b[..|b| - 1];
      var last := b[|b| - 1];
      var tail := if keep(last) then [last] else [];
      assert (a + b)[..|a + b| - 1] == a + b';
      assert (a + b)[|a + b| - 1] == last;
      calc {
        Filter(a + b, keep);
        Filter(a + b', keep) + tail;
        { FilterConcat(a, b', keep); }
        Filter(a, keep) + Filter(b', keep) + tail;
        Filter(a, keep) + (Filter(b', keep) + tail);
        Filter(a, keep) + Filter(b, keep);
      }
    }
  }

  /** When every element is kept, filtering is the identity. */
  lemma {:induction false} FilterAll<T(!new)>(s: seq<T>, keep: T -> bool)
    requires forall i :: 0 <= i < |s| ==> keep(s[i])
    ensures Filter(s, keep) == s
    decreases |s|
  {
    if |s| > 0 {
      var init, last := s[..|s| - 1], s[|s| - 1];
      FilterAll(init, keep);
      assert keep(last);
      assert Filter(s, keep) == Filter(init, keep) + [last];
      assert s == init + [last];
    }
  }
}

=== FILE: sorting.dfy ===
/** The results table's sorting: `handleSort` (clicking a column header) and
    `sortedVideos` (the rows in display order). `Array.prototype.sort` is a
    stable sort, so the rows are the unique stable ordering by the comparator;
    the model computes it with a stable insertion sort. */
module Sorting {
  import opened Wrappers
  import opened Text
  import opened Seqs
  import opened InsertionSort
  import Entities
  import Duration
  import opened Records

  datatype Direction = Asc | Desc

  /** `sortConfig`: the column key (`null` for none) and the direction. */
  datatype SortConfig = SortConfig(key: Option<string>, direction: Direction)

  /** The configuration a page load and every accepted search start from. */
  const Unsorted := SortConfig(None, Desc)

  // ----- handleSort -----

  /** Clicking the header of column `key`: a new column starts descending, and
      clicking the current column again flips descending to ascending and
      ascending back to descending. */
  function Toggle(cfg: SortConfig, key: string): (r: SortConfig)
    ensures r.key == Some(key)
    ensures cfg.key != Some(key) ==> r.direction == Desc
    ensures cfg.key == Some(key) ==> r.direction != cfg.direction
  {
    if cfg.key == Some(key) && cfg.direction == Desc then SortConfig(Some(key), Asc)
    else SortConfig(Some(key), Desc)
  }

  /** Two clicks on the current column restore the configuration. */
  lemma ToggleTwice(cfg: SortConfig, key: string)
    requires cfg.key == Some(key)
    ensures Toggle(Toggle(cfg, key), key) == cfg
  {
  }

  /** Three clicks on one column end where one click does: the directions
      alternate, starting from descending on a new column. */
  lemma ToggleAlternates(cfg: SortConfig, key: string)
    ensures Toggle(Toggle(Toggle(cfg, key), key), key) == Toggle(cfg, key)
  {
  }

  // ----- the comparator -----

  /** The sortable columns. `likeRatio` and `cii` share one key. */
  datatype SortField =
    | ByTitle | ByChannel | ByViews | BySubs | ByDate | ByDuration
    | ByLikes | ByComments | BySubViewRatio | ByLikeRatio | ByType

  /** The column a key names; any other key falls to the comparator's
      `default: return 0`. */
  function FieldOf(key: string): (f: Option<SortField>)
    ensures f == Some(ByLikeRatio) <==> key == "likeRatio" || key == "cii"
    ensures f == Some(BySubs) <==> key == "subs"
  {
    if key == "title" then Some(ByTitle)
    else if key == "channel" then Some(ByChannel)
    else if key == "views" then Some(ByViews)
    else if key == "subs" then Some(BySubs)
    else if key == "date" then Some(ByDate)
    else if key == "duration" then Some(ByDuration)
    else if key == "likes" then Some(ByLikes)
    else if key == "comments" then Some(ByComments)
    else if key == "subViewRatio" then Some(BySubViewRatio)
    else if key == "likeRatio" || key == "cii" then Some(ByLikeRatio)
    else if key == "type" then Some(ByType)
    else None
  }

  /** The subscriber count every row uses. */
  const SUBSCRIBERS: real := 10000.0

  /** A value the comparator compares: a number (exact, where the source uses
      doubles) or a string. One column always yields one kind. */
  datatype SortValue = Num(x: real) | Str(s: string)

  /** The value of a row in a column. */
  function KeyValue(f: SortField, v: Video): (k: SortValue)
    ensures k.Str? <==> f == ByTitle || f == ByChannel || f == ByType
    ensures f == ByTitle ==> k.s == AsciiLower(Entities.Decode(v.item.snippet.title))
    ensures f == ByChannel ==> k.s == AsciiLower(v.item.snippet.channelTitle)
    ensures f == ByType ==> (k.s == "롱폼" <==> Duration.Classify(DurationOf(v)) == Duration.LongForm)
    ensures f == ByViews ==> k.x == Views(v) as real
    ensures f == BySubs ==> k.x == SUBSCRIBERS
    ensures f == ByDate ==> k.x == v.item.snippet.publishedAt as real
    ensures f == ByDuration ==> k.x == Duration.Seconds(DurationOf(v)) as real
    ensures f == ByLikes ==> k.x == Likes(v) as real
    ensures f == ByComments ==> k.x == Comments(v) as real
    ensures f == BySubViewRatio ==> k.x == Views(v) as real / SUBSCRIBERS
    ensures f == ByLikeRatio ==> k.x == Likes(v) as real / RatioViews(v) as real
  {
    match f
    case ByTitle => Str(AsciiLower(Entities.Decode(v.item.snippet.title)))
    case ByChannel => Str(AsciiLower(v.item.snippet.channelTitle))
    case ByViews => Num(Views(v) as real)
    case BySubs => Num(SUBSCRIBERS)
    case ByDate => Num(v.item.snippet.publishedAt as real)
    case ByDuration => Num(Duration.Seconds(DurationOf(v)) as real)
    case ByLikes => Num(Likes(v) as real)
    case ByComments => Num(Comments(v) as real)
    case BySubViewRatio => Num(Views(v) as real / SUBSCRIBERS)
    case ByLikeRatio => Num(Likes(v) as real / RatioViews(v) as real)
    case ByType => Str(Duration.Label(Duration.Classify(DurationOf(v))))
  }

  /** JavaScript's `<` on two values of one column: numeric order on numbers,
      `StrLess` on strings. Numbers are put below strings only to make the
      order total; no column mixes the two. */
  predicate ValueLess(a: SortValue, b: SortValue) {
    match (a, b)
    case (Num(x), Num(y)) => x < y
    case (Str(s), Str(t)) => StrLess(s, t)
    case (Num(_), Str(_)) => true
    case (Str(_), Num(_)) => false
  }

  predicate ValueLe(a: SortValue, b: SortValue) {
    ValueLess(a, b) || a == b
  }

  lemma ValueLessStrict(a: SortValue, b: SortValue)
    ensures !(ValueLess(a, b) && ValueLess(b, a))
    ensures !ValueLess(a, a)
  {
    if a.Str? && b.Str? && StrLess(a.s, b.s) && StrLess(b.s, a.s) {
      StrLessTransitive(a.s, b.s, a.s);
      StrLessIrreflexive(a.s);
    }
    if a.Str? {
      StrLessIrreflexive(a.s);
    }
  }

  lemma ValueLessTransitive(a: SortValue, b: SortValue, c: SortValue)
    requires ValueLess(a, b) && ValueLess(b, c)
    ensures ValueLess(a, c)
  {
    if a.Str? && b.Str? && c.Str? {
      StrLessTransitive(a.s, b.s, c.s);
    }
  }

  lemma ValueLessTrichotomy(a: SortValue, b: SortValue)
    ensures ValueLess(a, b) || a == b || ValueLess(b, a)
  {
    if a.Str? && b.Str? {
      StrLessTrichotomy(a.s, b.s);
    }
  }

  /** The comparator passed to `sort`: -1, 1 or 0 by the column's values and
      the direction, and 0 for every pair under an unknown key. */
  function Compare(dir: Direction, f: Option<SortField>, a: Video, b: Video): (c: int)
    ensures c == -1 || c == 0 || c == 1
    ensures f.None? ==> c == 0
  {
    if f.None? then 0
    else
      var x := KeyValue(f.value, a);
      var y := KeyValue(f.value, b);
      if ValueLess(x, y) then (if dir == Asc then -1 else 1)
      else if ValueLess(y, x) then (if dir == Asc then 1 else -1)
      else 0
  }

  /** `a` may stay in front of `b`. */
  predicate Before(dir: Direction, f: Option<SortField>, a: Video, b: Video) {
    Compare(dir, f, a, b) <= 0
  }

  /** The comparator is consistent: ascending puts non-decreasing values in
      front, descending non-increasing ones, and it reports 0 exactly for equal
      values. */
  lemma CompareMeaning(dir: Direction, f: SortField, a: Video, b: Video)
    ensures Before(dir, Some(f), a, b) <==>
              if dir == Asc then ValueLe(KeyValue(f, a), KeyValue(f, b))
              else ValueLe(KeyValue(f, b), KeyValue(f, a))
    ensures Compare(dir, Some(f), a, b) == 0 <==> KeyValue(f, a) == KeyValue(f, b)
    ensures Compare(dir, Some(f), a, b) == -Compare(dir, Some(f), b, a)
  {
    var x, y := KeyValue(f, a), KeyValue(f, b);
    ValueLessStrict(x, y);
    ValueLessTrichotomy(x, y);
  }

  lemma BeforeTotal(dir: Direction, f: Option<SortField>, a: Video, b: Video)
    ensures Before(dir, f, a, b) || Before(dir, f, b, a)
  {
    if f.Some? {
      CompareMeaning(dir, f.value, a, b);
    }
  }

  lemma BeforeTransitive(dir: Direction, f: Option<SortField>, a: Video, b: Video, c: Video)
    requires Before(dir, f, a, b) && Before(dir, f, b, c)
    ensures Before(dir, f, a, c)
  {
    if f.Some? {
      var x, y, z := KeyValue(f.value, a), KeyValue(f.value, b), KeyValue(f.value, c);
      CompareMeaning(dir, f.value, a, b);
      CompareMeaning(dir, f.value, b, c);
      CompareMeaning(dir, f.value, a, c);
      if dir == Asc {
        if ValueLess(x, y) && ValueLess(y, z) { ValueLessTransitive(x, y, z); }
      } else {
        if ValueLess(z, y) && ValueLess(y, x) { ValueLessTransitive(z, y, x); }
      }
    }
  }

  // ----- the sort -----

  /** The comparator as a relation for the stable sort. */
  function BeforeFn(dir: Direction, f: Option<SortField>): (Video, Video) -> bool {
    (a, b) => Before(dir, f, a, b)
  }

  lemma BeforeFnPreorder(dir: Direction, f: Option<SortField>)
    ensures TotalPreorder(BeforeFn(dir, f))
  {
    forall a, b ensures Before(dir, f, a, b) || Before(dir, f, b, a) {
      BeforeTotal(dir, f, a, b);
    }
    forall a, b, c | Before(dir, f, a, b) && Before(dir, f, b, c) ensures Before(dir, f, a, c) {
      BeforeTransitive(dir, f, a, b, c);
    }
  }

  /** `sortedVideos`: the rows unchanged while no column is selected, and
      otherwise a permutation of them in the comparator's stable order. */
  function SortedVideos(cfg: SortConfig, videos: seq<Video>): (r: seq<Video>)
    ensures |r| == |videos|
    ensures multiset(r) == multiset(videos)
    ensures cfg.key.None? ==> r == videos
  {
    if cfg.key.None? then videos
    else Sort(BeforeFn(cfg.direction, FieldOf(cfg.key.value)), videos)
  }

  /** Under a selected column the rows are in order: ascending puts the column's
      values in non-decreasing order, descending in non-increasing order. */
  lemma SortedVideosOrdered(cfg: SortConfig, videos: seq<Video>, f: SortField)
    requires cfg.key.Some? && FieldOf(cfg.key.value) == Some(f)
    ensures var r := SortedVideos(cfg, videos);
            forall i, j :: 0 <= i < j < |r| ==>
              if cfg.direction == Asc then ValueLe(KeyValue(f, r[i]), KeyValue(f, r[j]))
              else ValueLe(KeyValue(f, r[j]), KeyValue(f, r[i]))
  {
    var r := SortedVideos(cfg, videos);
    BeforeFnPreorder(cfg.direction, Some(f));
    SortSorted(BeforeFn(cfg.direction, Some(f)), videos);
    forall i, j | 0 <= i < j < |r|
      ensures if cfg.direction == Asc then ValueLe(KeyValue(f, r[i]), KeyValue(f, r[j]))
              else ValueLe(KeyValue(f, r[j]), KeyValue(f, r[i]))
    {
      assert BeforeFn(cfg.direction, Some(f))(r[i], r[j]);
      CompareMeaning(cfg.direction, f, r[i], r[j]);
    }
  }

  /** The rows whose value in column `f` equals that of `p`. */
  function SameValue(f: SortField, p: Video): Video -> bool {
    v => KeyValue(f, v) == KeyValue(f, p)
  }

  /** Stability: the rows sharing any one value of the selected column appear in
      the output in the order they had in the input. */
  lemma SortedVideosStable(cfg: SortConfig, videos: seq<Video>, f: SortField, p: Video)
    requires cfg.key.Some? && FieldOf(cfg.key.value) == Some(f)
    ensures Filter(SortedVideos(cfg, videos), SameValue(f, p)) == Filter(videos, SameValue(f, p))
  {
    var before := BeforeFn(cfg.direction, Some(f));
    forall a, b | SameValue(f, p)(a) && SameValue(f, p)(b) ensures before(a, b) {
      CompareMeaning(cfg.direction, f, a, b);
    }
    SortStable(before, SameValue(f, p), videos);
  }

  /** Under `subs`, whose value is the same constant for every row, and under
      a key the comparator does not know, the rows keep their order. */
  lemma SortedVideosKeepsOrder(cfg: SortConfig, videos: seq<Video>)
    requires cfg.key.Some? ==> FieldOf(cfg.key.value) == None || cfg.key.value == "subs"
    ensures SortedVideos(cfg, videos) == videos
  {
    if cfg.key.Some? {
      var before := BeforeFn(cfg.direction, FieldOf(cfg.key.value));
      assert Sorted(before, videos) by {
        forall i, j | 0 <= i < j < |videos| ensures before(videos[i], videos[j]) {
          assert Compare(cfg.direction, FieldOf(cfg.key.value), videos[i], videos[j]) == 0;
        }
      }
      SortOfSorted(before, videos);
    }
  }

  /** Sorting the displayed rows again changes nothing. */
  lemma SortedVideosIdempotent(cfg: SortConfig, videos: seq<Video>)
    ensures SortedVideos(cfg, SortedVideos(cfg, videos)) == SortedVideos(cfg, videos)
  {
    if cfg.key.Some? {
      var before := BeforeFn(cfg.direction, FieldOf(cfg.key.value));
      BeforeFnPreorder(cfg.direction, FieldOf(cfg.key.value));
      SortSorted(before, videos);
      SortOfSorted(before, Sort(before, videos));
    }
  }

  /** The type column's labels compare as "롱폼" < "쇼츠". */
  lemma TypeLabelsOrdered()
    ensures ValueLess(Str(Duration.Label(Duration.LongForm)), Str(Duration.Label(Duration.Shorts)))
    ensures !ValueLe(Str(Duration.Label(Duration.Shorts)), Str(Duration.Label(Duration.LongForm)))
  {
    assert "롱폼"[0] < "쇼츠"[0];
    ValueLessStrict(Str(Duration.Label(Duration.LongForm)), Str(Duration.Label(Duration.Shorts)));
  }

  /** Sorting by type groups the rows: ascending shows every long-form row
      before every short, descending every short before every long-form row. */
  lemma {:induction false} LongFormBeforeShorts(videos: seq<Video>, dir: Direction)
    ensures var r := SortedVideos(SortConfig(Some("type"), dir), videos);
            forall i, j :: 0 <= i < j < |r| ==>
              if dir == Asc then Duration.Classify(DurationOf(r[j])) == Duration.LongForm ==> Duration.Classify(DurationOf(r[i])) == Duration.LongForm
              else Duration.Classify(DurationOf(r[i])) == Duration.LongForm ==> Duration.Classify(DurationOf(r[j])) == Duration.LongForm
  {
    var cfg := SortConfig(Some("type"), dir);
    var r := SortedVideos(cfg, videos);
    SortedVideosOrdered(cfg, videos, ByType);
    TypeLabelsOrdered();
  }

  // ----- what each column sorts by -----

  /** `r` is in the direction's order of the numeric measure `m`. */
  predicate OrderedBy(r: seq<Video>, dir: Direction, m: Video -> real) {
    forall i, j :: 0 <= i < j < |r| ==>
      if dir == Asc then m(r[i]) <= m(r[j]) else m(r[j]) <= m(r[i])
  }

  /** `r` is in the direction's order of the text `m`, compared as JavaScript
      compares strings. */
  predicate OrderedByText(r: seq<Video>, dir: Direction, m: Video -> string) {
    forall i, j :: 0 <= i < j < |r| ==>
      if dir == Asc then StrLess(m(r[i]), m(r[j])) || m(r[i]) == m(r[j])
      else StrLess(m(r[j]), m(r[i])) || m(r[j]) == m(r[i])
  }

  /** A numeric column sorts the rows by the measure its value is. */
  lemma NumericColumn(cfg: SortConfig, videos: seq<Video>, f: SortField, m: Video -> real)
    requires cfg.key.Some? && FieldOf(cfg.key.value) == Some(f)
    requires forall v :: KeyValue(f, v) == Num(m(v))
    ensures OrderedBy(SortedVideos(cfg, videos), cfg.direction, m)
  {
    var r := SortedVideos(cfg, videos);
    SortedVideosOrdered(cfg, videos, f);
    forall i, j | 0 <= i < j < |r|
      ensures if cfg.direction == Asc then m(r[i]) <= m(r[j]) else m(r[j]) <= m(r[i])
    {
      assert KeyValue(f, r[i]) == Num(m(r[i])) && KeyValue(f, r[j]) == Num(m(r[j]));
    }
  }

  lemma TextLe(a: string, b: string)
    requires ValueLe(Str(a), Str(b))
    ensures StrLess(a, b) || a == b
  {
  }

  /** A text column sorts the rows by the text its value is. */
  lemma TextColumn(cfg: SortConfig, videos: seq<Video>, f: SortField, m: Video -> string)
    requires cfg.key.Some? && FieldOf(cfg.key.value) == Some(f)
    requires forall v :: KeyValue(f, v) == Str(m(v))
    ensures OrderedByText(SortedVideos(cfg, videos), cfg.direction, m)
  {
    var r := SortedVideos(cfg, videos);
    SortedVideosOrdered(cfg, videos, f);
    forall i, j | 0 <= i < j < |r|
      ensures if cfg.direction == Asc then StrLess(m(r[i]), m(r[j])) || m(r[i]) == m(r[j])
              else StrLess(m(r[j]), m(r[i])) || m(r[j]) == m(r[i])
    {
      assert KeyValue(f, r[i]) == Str(m(r[i])) && KeyValue(f, r[j]) == Str(m(r[j]));
      if cfg.direction == Asc {
        TextLe(m(r[i]), m(r[j]));
      } else {
        TextLe(m(r[j]), m(r[i]));
      }
    }
  }

  /** The views column sorts by the view count, a missing count as 0. */
  lemma SortedByViews(videos: seq<Video>, dir: Direction)
    ensures OrderedBy(SortedVideos(SortConfig(Some("views"), dir), videos), dir, (v: Video) => Views(v) as real)
  {
    NumericColumn(SortConfig(Some("views"), dir), videos, ByViews, (v: Video) => Views(v) as real);
  }

  /** The likes column sorts by the like count, a missing count as 0. */
  lemma SortedByLikes(videos: seq<Video>, dir: Direction)
    ensures OrderedBy(SortedVideos(SortConfig(Some("likes"), dir), videos), dir, (v: Video) => Likes(v) as real)
  {
    NumericColumn(SortConfig(Some("likes"), dir), videos, ByLikes, (v: Video) => Likes(v) as real);
  }

  /** The comments column sorts by the comment count, a missing count as 0. */
  lemma SortedByComments(videos: seq<Video>, dir: Direction)
    ensures OrderedBy(SortedVideos(SortConfig(Some("comments"), dir), videos), dir, (v: Video) => Comments(v) as real)
  {
    NumericColumn(SortConfig(Some("comments"), dir), videos, ByComments, (v: Video) => Comments(v) as real);
  }

  /** The duration column sorts by the parsed length in seconds. */
  lemma SortedByDuration(videos: seq<Video>, dir: Direction)
    ensures OrderedBy(SortedVideos(SortConfig(Some("duration"), dir), videos), dir,
                      (v: Video) => Duration.Seconds(DurationOf(v)) as real)
  {
    NumericColumn(SortConfig(Some("duration"), dir), videos, ByDuration, (v: Video) => Duration.Seconds(DurationOf(v)) as real);
  }

  /** The date column sorts by the publication time. */
  lemma SortedByDate(videos: seq<Video>, dir: Direction)
    ensures OrderedBy(SortedVideos(SortConfig(Some("date"), dir), videos), dir, (v: Video) => v.item.snippet.publishedAt as real)
  {
    NumericColumn(SortConfig(Some("date"), dir), videos, ByDate, (v: Video) => v.item.snippet.publishedAt as real);
  }

  /** The views-per-subscriber column divides every row by the same count, so
      it sorts by the view count. */
  lemma SortedBySubViewRatio(videos: seq<Video>, dir: Direction)
    ensures OrderedBy(SortedVideos(SortConfig(Some("subViewRatio"), dir), videos), dir, (v: Video) => Views(v) as real)
  {
    var cfg := SortConfig(Some("subViewRatio"), dir);
    var m := (v: Video) => Views(v) as real / SUBSCRIBERS;
    NumericColumn(cfg, videos, BySubViewRatio, m);
    var r := SortedVideos(cfg, videos);
    forall i, j | 0 <= i < j < |r|
      ensures if dir == Asc then Views(r[i]) <= Views(r[j]) else Views(r[j]) <= Views(r[i])
    {
      assert if dir == Asc then m(r[i]) <= m(r[j]) else m(r[j]) <= m(r[i]);
    }
  }

  /** The like-ratio column, under either of its keys, sorts by likes per view,
      with a missing view count read as 1. */
  lemma SortedByLikeRatio(videos: seq<Video>, dir: Direction, key: string)
    requires key == "likeRatio" || key == "cii"
    ensures OrderedBy(SortedVideos(SortConfig(Some(key), dir), videos), dir,
                      (v: Video) => Likes(v) as real / RatioViews(v) as real)
  {
    NumericColumn(SortConfig(Some(key), dir), videos, ByLikeRatio, (v: Video) => Likes(v) as real / RatioViews(v) as real);
  }

  /** The title column sorts by the decoded, lower-cased title. */
  lemma SortedByTitle(videos: seq<Video>, dir: Direction)
    ensures OrderedByText(SortedVideos(SortConfig(Some("title"), dir), videos), dir,
                          (v: Video) => AsciiLower(Entities.Decode(v.item.snippet.title)))
  {
    TextColumn(SortConfig(Some("title"), dir), videos, ByTitle, (v: Video) => AsciiLower(Entities.Decode(v.item.snippet.title)));
  }

  /** The channel column sorts by the lower-cased channel name. */
  lemma SortedByChannel(videos: seq<Video>, dir: Direction)
    ensures OrderedByText(SortedVideos(SortConfig(Some("channel"), dir), videos), dir,
                          (v: Video) => AsciiLower(v.item.snippet.channelTitle))
  {
    TextColumn(SortConfig(Some("channel"), dir), videos, ByChannel, (v: Video) => AsciiLower(v.item.snippet.channelTitle));
  }
}

=== FILE: text.dfy ===
/** Character classes, digit strings and string order as JavaScript sees them.
    Strings are sequences of `char`, and a Dafny character is a Unicode code
    point (a scalar value), not a UTF-16 code unit as in JavaScript; the README
    says what that leaves out. */
module Text {

  type Radix = r: nat | r == 10 || r == 16 witness 10

  /** `\d` of a JavaScript regular expression: ASCII digits only. */
  predicate IsDigit(c: char) {
    '0' <= c <= '9'
  }

  predicate IsHexDigit(c: char) {
    IsDigit(c) || 'a' <= c <= 'f' || 'A' <= c <= 'F'
  }

  predicate IsRadixDigit(c: char, radix: Radix) {
    if radix == 10 then IsDigit(c) else IsHexDigit(c)
  }

  predicate AllRadixDigits(s: string, radix: Radix) {
    forall i :: 0 <= i < |s| ==> IsRadixDigit(s[i], radix)
  }

  /** The numeric value of one digit character. */
  function CharValue(c: char, radix: Radix): (v: nat)
    requires IsRadixDigit(c, radix)
    ensures v < radix
  {
    if IsDigit(c) then (c - '0') as nat
    else if 'a' <= c <= 'f' then (c - 'a') as nat + 10
    else (c - 'A') as nat + 10
  }

  /** The value of a string of digits, most significant digit first. */
  function DigitsValue(ds: string, radix: Radix): nat
    requires AllRadixDigits(ds, radix)
    decreases |ds|
  {
    if |ds| == 0 then 0
    else DigitsValue(ds[..|ds| - 1], radix) * radix + CharValue(ds[|ds| - 1], radix)
  }

  function DigitChar(d: nat): (c: char)
    requires d < 10
    ensures IsDigit(c) && CharValue(c, 10) == d
  {
    ['0', '1', '2', '3', '4', '5', '6', '7', '8', '9'][d]
  }

  /** Decimal rendering of a natural number, as JavaScript's `String(n)` for
      safe integers: no leading zero, and parsing it back gives `n`. */
  function NatToDigits(n: nat): (ds: string)
    ensures |ds| > 0 && AllRadixDigits(ds, 10)
    ensures DigitsValue(ds, 10) == n
    ensures |ds| == 1 || ds[0] != '0'
    decreases n
  {
    if n < 10 then [DigitChar(n)]
    else
      var init := NatToDigits(n / 10);
      var ds := init + [DigitChar(n % 10)];
      assert ds[..|ds| - 1] == init;
      ds
  }

  /** Length of the maximal run of `radix` digits starting at index `p`. */
  function DigitRun(s: string, p: nat, radix: Radix): (n: nat)
    requires p <= |s|
    ensures p + n <= |s|
    ensures forall i :: p <= i < p + n ==> IsRadixDigit(s[i], radix)
    ensures p + n == |s| || !IsRadixDigit(s[p + n], radix)
    decreases |s| - p
  {
    if p < |s| && IsRadixDigit(s[p], radix) then 1 + DigitRun(s, p + 1, radix) else 0
  }

  /** The characters of a digit run form a digit string. */
  lemma DigitRunDigits(s: string, p: nat, radix: Radix)
    requires p <= |s|
    ensures AllRadixDigits(s[p..p + DigitRun(s, p, radix)], radix)
  {
  }

  /** A run of digits that stops at a non-digit or at the end is the maximal run. */
  lemma {:induction false} DigitRunExact(s: string, p: nat, k: nat, radix: Radix)
    requires p + k <= |s|
    requires forall i :: p <= i < p + k ==> IsRadixDigit(s[i], radix)
    requires p + k == |s| || !IsRadixDigit(s[p + k], radix)
    ensures DigitRun(s, p, radix) == k
    decreases k
  {
    if k > 0 {
      DigitRunExact(s, p + 1, k - 1, radix);
    }
  }

  /** White space that `String.prototype.trim` and `parseInt` skip: the
      ECMAScript WhiteSpace and LineTerminator characters. */
  predicate IsJsSpace(c: char) {
    || c == '\t' || c == '\n' || c == '\U{000B}' || c == '\U{000C}' || c == '\r'
    || c == ' ' || c == '\U{00A0}' || c == '\U{1680}' || '\U{2000}' <= c <= '\U{200A}'
    || c == '\U{2028}' || c == '\U{2029}' || c == '\U{202F}' || c == '\U{205F}'
    || c == '\U{3000}' || c == '\U{FEFF}'
  }

  /** `s.trim()` is the empty string exactly when every character is white space. */
  predicate IsBlank(s: string) {
    forall i :: 0 <= i < |s| ==> IsJsSpace(s[i])
  }

  /** Number of leading white-space characters. */
  function LeadingSpace(s: string, p: nat): (n: nat)
    requires p <= |s|
    ensures p + n <= |s|
    ensures forall i :: p <= i < p + n ==> IsJsSpace(s[i])
    ensures p + n == |s| || !IsJsSpace(s[p + n])
    decreases |s| - p
  {
    if p < |s| && IsJsSpace(s[p]) then 1 + LeadingSpace(s, p + 1) else 0
  }

  function UpperChar(c: char): char {
    if 'a' <= c <= 'z' then c - 'a' + 'A' else c
  }

  function LowerChar(c: char): char {
    if 'A' <= c <= 'Z' then c - 'A' + 'a' else c
  }

  /** `toUpperCase` on the ASCII letters; every other character is kept. */
  function AsciiUpper(s: string): (r: string)
    ensures |r| == |s|
    ensures forall i :: 0 <= i < |s| ==> r[i] == UpperChar(s[i])
  {
    seq(|s|, i requires 0 <= i < |s| => UpperChar(s[i]))
  }

  /** `toLowerCase` on the ASCII letters; every other character is kept. */
  function AsciiLower(s: string): (r: string)
    ensures |r| == |s|
    ensures forall i :: 0 <= i < |s| ==> r[i] == LowerChar(s[i])
  {
    seq(|s|, i requires 0 <= i < |s| => LowerChar(s[i]))
  }

  /** `s.includes(c)` for a one-character needle. */
  predicate Contains(s: string, c: char) {
    exists i :: 0 <= i < |s| && s[i] == c
  }

  /** JavaScript's `a < b` on strings: the first differing character decides,
      and a proper prefix is smaller. */
  predicate StrLess(a: string, b: string)
    decreases |a|
  {
    if |a| == 0 then |b| > 0
    else if |b| == 0 then false
    else if a[0] != b[0] then a[0] < b[0]
    else StrLess(a[1..], b[1..])
  }

  lemma {:induction false} StrLessIrreflexive(a: string)
    ensures !StrLess(a, a)
    decreases |a|
  {
    if |a| > 0 {
      StrLessIrreflexive(a[1..]);
    }
  }

  lemma {:induction false} StrLessTransitive(a: string, b: string, c: string)
    requires StrLess(a, b) && StrLess(b, c)
    ensures StrLess(a, c)
    decreases |a|
  {
    if |a| > 0 && a[0] == b[0] && b[0] == c[0] {
      StrLessTransitive(a[1..], b[1..], c[1..]);
    }
  }

  lemma {:induction false} StrLessTrichotomy(a: string, b: string)
    ensures StrLess(a, b) || a == b || StrLess(b, a)
    decreases |a|
  {
    if |a| > 0 && |b| > 0 && a[0] == b[0] {
      StrLessTrichotomy(a[1..], b[1..]);
      if a[1..] == b[1..] {
        assert a == [a[0]] + a[1..] && b == [b[0]] + b[1..];
      }
    }
  }
}

=== FILE: wrappers.dfy ===
/** Optional values: the model's stand-in for JavaScript's `undefined` and for
    properties that a response object may or may not carry. */
module Wrappers {

  datatype Option<+T> = None | Some(value: T) {

    /** The carried value, or `default` for an absent one (`x || default`). */
    function GetOr(default: T): T {
      match this
      case Some(v) => v
      case None => default
    }
  }
}
